=== FILE: README.md ===
# Storefront builder: a Dafny model of its store, deploy and order logic

The system lets a shop owner turn a Google Sheet into a small storefront. The
owner pastes a sheet link. The products are read from the sheet and a store
record is created together with its products and its spreadsheet connection.
The store can later be deployed, which moves its status from `preview` to
`deployed`. Customers order through a cart whose checkout opens a WhatsApp
`wa.me` link carrying a plain-text order message.

The model covers the operations that carry logic, one module per source file:

- `StoreActions`, from `src/hooks/useStoreActions.ts`.
  - `SetupComplete`: insert the store, tag the products with its id, write them in batches of ten, write the connection, redirect.
  - `HandleDeploy`: existence check, then the status update.
- `KeyValueApi`, from `src/pages/api/store.ts`: the GET/POST handler over the browser's key-value storage.
- `DeployApi`, from `src/pages/api/store/deploy.ts`: the deploy handler that derives a `.shop.link` host from the store name.
- `DeployFunction`, from `supabase/functions/deploy-store/index.ts`: the edge function's decision sequence.
- `GoogleSheets`, from `src/utils/googleSheets.ts`: sheet-id extraction with the regular expression's leftmost-match rule, unwrapping of the gviz response, and the row-to-product mapping.
- `StoreData`, from `src/hooks/useStoreData.ts`: the page load. It turns the path into a store id, finds the store, and filters its products.
- `Cart` and `CheckoutForm`, from `src/components/Cart.tsx` and `src/components/CheckoutForm.tsx`. Both share `Order`, which holds the order message and the link.
- Shared modules:
  - `Basics`: `Option`, `Result` and JavaScript truthiness of strings.
  - `Text`: ASCII case, decimal digits, `split`/`join` on one character, and runs of characters.
  - `LocalStorage`: storage as a `map<string, string>` and the `store_<id>_<field>` keys.

State is immutable throughout:

- Browser storage is a map. The hosted tables are sequences or maps inside a `Db` value.
- Every remote answer is an input to the operation: the table calls, the page fetch, and the clock reading used as an id.
- `JSON.parse`, `JSON.stringify` and `encodeURIComponent` are function-typed parameters. Each lemma that needs a round trip takes it as a requirement: `PostThenGet` and `PostThenGetDefault` need it on the posted products only, and `Cart.LinkCarriesOrder` needs a decoder that undoes the encoding on every text.
- An absent value that a template literal or `setItem` turns into text becomes the text `undefined`, as in JavaScript.
- Money is in integer cents. `toFixed(2)` is modelled as the exact `d.dd` rendering of a cent amount.

Three facts about the code that the model keeps:

- Store creation normalises or validates neither the WhatsApp number nor the name.
- A sheet row without a description gets "No description available".
- The batch size is 10; the last batch holds whatever remains.

## Model

| member | source | states |
|---|---|---|
| StoreActions.SetupComplete | src/hooks/useStoreActions.ts:10-98 | The store insert always goes first with the given name, template, whatsapp and status `preview`. If it fails, nothing else is requested, the tables are unchanged, the error toast carries the message, there is no redirect and `isProcessing` is reset. If it succeeds, the new row is appended, the connection insert (id, url, `google`, whatsapp, template) comes last, the redirect is `/<id>` and `isProcessing` stays true. Whatever the later inserts answer, the products table gains exactly the batches whose insert succeeded, in order. The connection is added iff its insert succeeds. The toasts are one warning per failed batch, in order, then one for a failed connection. |
| StoreActions.Chunks | src/hooks/useStoreActions.ts:48-50 | Batches concatenate back to the input in order. Each holds 1 to n items, and all but the last hold exactly n. |
| StoreActions.ChunkIsSlice | src/hooks/useStoreActions.ts:49-50 | Batch k is exactly the slice at offset 10·k: `slice(10k, 10k + 10)`, cut at the end of the list. |
| StoreActions.WriteBatches | src/hooks/useStoreActions.ts:49-63 | The rows afterwards are the existing rows followed by the batches whose insert succeeded, in order, and the toasts are one warning per failed batch. Hence existing rows stay a prefix, every added row comes from a batch, and with no failure exactly the batches are appended with no warning. |
| StoreActions.Kept | src/hooks/useStoreActions.ts:49-57 | The batches whose insert answers no error, in order; never more than there are batches, each one of them. |
| StoreActions.Warnings | src/hooks/useStoreActions.ts:56-62 | One warning per failed batch carrying its error message, in order; never more than there are batches. |
| StoreActions.KeptOrWarned | src/hooks/useStoreActions.ts:49-63 | Every batch is either written or warned about, never both: the kept and warned counts add up to the number of batches. |
| StoreActions.KeptAll | src/hooks/useStoreActions.ts:49-63 | When no insert fails, every batch is kept and there is no warning. |
| StoreActions.FailedBatchThenGoodBatch | src/hooks/useStoreActions.ts:49-63 | With two batches where only the first insert fails, the second batch is still written, and exactly one warning, carrying the first error, is shown. |
| StoreActions.TagAll | src/hooks/useStoreActions.ts:43-46 | One tagged product per input product, in order. |
| StoreActions.TagKeepsFields | src/hooks/useStoreActions.ts:43-46 | Tagging adds `store_id` with the new id and keeps every other field and its value. |
| StoreActions.BatchRequests | src/hooks/useStoreActions.ts:51-53 | One product insert per batch, carrying that batch, in batch order. |
| StoreActions.SetupRequestsAreBatches | src/hooks/useStoreActions.ts:42-76 | After a created store the calls are: the store insert, one insert per batch, the connection insert. Each batch holds at most 10 products, and together the batches are exactly the tagged product list, with nothing dropped or duplicated. |
| StoreActions.FailuresDoNotStopSetup | src/hooks/useStoreActions.ts:51-88 | Batch or connection failures change neither the calls issued nor the redirect nor `isProcessing`, so later batches are still attempted. |
| StoreActions.WrittenProductsTagged | src/hooks/useStoreActions.ts:43-53 | Every product row a setup adds has `store_id` equal to the new id and is the tagged copy of one of the initial products. |
| StoreActions.SetupAllSucceed | src/hooks/useStoreActions.ts:42-85 | When every insert succeeds, the products table gains exactly the tagged products in order, the connection table gains the connection, and no toast is shown. |
| StoreActions.SetupWithoutProducts | src/hooks/useStoreActions.ts:42-88 | With no products, only the store and connection inserts are issued. A failed connection only adds its warning, and the redirect is still `/<id>`. |
| StoreActions.HandleDeploy | src/hooks/useStoreActions.ts:101-152 | `isProcessing` ends false on every path. For an absent store there is no update and no reload, and the tables are unchanged. A reload happens iff the store exists and both calls succeed. Then only the `status` of rows with this id changes, to `deployed`. Otherwise the tables are unchanged. |
| StoreActions.DeployMissingStore | src/hooks/useStoreActions.ts:118-121 | An absent store gives exactly: the select call only, the "Store not found" failure toast, no reload, `isProcessing` false. |
| StoreActions.SetupThenDeploy | src/hooks/useStoreActions.ts:22-140 | A store created by a setup can be deployed, and its row then reads the given name, template and whatsapp with status `deployed`. |
| KeyValueApi.Handler | src/pages/api/store.ts:5-79 | Only POST writes storage. Methods other than GET and POST get 405. A 404 only ever answers a GET with a non-empty store id. |
| KeyValueApi.PostKeysDistinct | src/pages/api/store.ts:51-60 | The four per-store keys differ from each other and from the four default keys, so no POST write overwrites another. |
| KeyValueApi.GetMissingName | src/pages/api/store.ts:9-27 | A GET for an id with no stored name, or an empty one, answers 404 when the products parse and 500 otherwise. Storage is untouched. |
| KeyValueApi.GetKnownStore | src/pages/api/store.ts:11-23 | A GET for an id whose name is stored and whose products parse answers 200. It echoes the id, the stored name, template and whatsapp, and the parsed products. |
| KeyValueApi.GetKnownStoreWithoutProducts | src/pages/api/store.ts:11-17 | For such a store with no products key, the products read back as `[]`. |
| KeyValueApi.Post | src/pages/api/store.ts:45-75 | Without a body it answers 500 and writes nothing. With one it answers 200, adds exactly the eight keys for the clock-reading id, and reports that id. |
| KeyValueApi.PostWrites | src/pages/api/store.ts:45-71 | POST writes exactly the four `store_<id>_*` keys and the four default keys, with the posted values (`products` or `[]`, stringified). No other key changes. The answer echoes the fields and gives the url `<base>/<id>`. |
| KeyValueApi.PostIdsDiffer | src/pages/api/store.ts:48-48 | POSTs at different clock readings answer with different ids. |
| KeyValueApi.PostThenGet | src/pages/api/store.ts:11-60 | A GET with the id a POST returned reads back the posted name, template, whatsapp and products, given a non-empty name and a JSON round trip of the products. |
| KeyValueApi.PostThenGetDefault | src/pages/api/store.ts:31-60 | A GET without an id reads back the last POST from the default keys. |
| KeyValueApi.PostWithoutBody | src/pages/api/store.ts:45-75 | A POST without a body answers 500 and writes nothing. |
| KeyValueApi.OtherMethod | src/pages/api/store.ts:78-78 | Any method other than GET or POST answers 405 and storage is unchanged. |
| DeployApi.Handler | src/pages/api/store/deploy.ts:4-29 | Any answer other than 200 leaves storage unchanged. |
| DeployApi.CollapseSpaces | src/pages/api/store/deploy.ts:17-17 | The result contains no whitespace and is no longer than the input. |
| DeployApi.CollapseWithoutSpaces | src/pages/api/store/deploy.ts:17-17 | Text without whitespace is returned unchanged. |
| DeployApi.CollapseIdempotent | src/pages/api/store/deploy.ts:17-17 | Replacing whitespace runs twice gives the same text as replacing them once. |
| DeployApi.CollapseRun | src/pages/api/store/deploy.ts:17-17 | A maximal whitespace run between two pieces becomes exactly one `-`, and each side is treated on its own. |
| DeployApi.Slug | src/pages/api/store/deploy.ts:17-17 | The derived host ends in `.shop.link`, is at most that suffix longer than the name, and contains neither whitespace nor an upper-case letter. |
| DeployApi.SlugPlain | src/pages/api/store/deploy.ts:17-17 | A name without whitespace is published as its lower-case form followed by `.shop.link`. |
| DeployApi.SlugRun | src/pages/api/store/deploy.ts:17-17 | A maximal whitespace run in the name becomes exactly one `-` in the host, and the text on each side is published on its own. With `SlugPlain`, this fixes the host for every name. |
| DeployApi.LowerAppend | src/pages/api/store/deploy.ts:17-17 | Lower-casing a concatenation lower-cases each piece. |
| DeployApi.NonPostRefused | src/pages/api/store/deploy.ts:5-7 | A non-POST request answers 405 and writes nothing. |
| DeployApi.MissingNameNotFound | src/pages/api/store/deploy.ts:12-15 | A missing or empty name answers 404, and neither the status key nor the url key is written. |
| DeployApi.DeploySucceeds | src/pages/api/store/deploy.ts:12-24 | On success `store_<id>_status` is `deployed` and `store_<id>_url` is the slug, and every other key keeps its value. The answer is `https://` plus the slug, with status `deployed`. |
| DeployApi.DeployIdempotent | src/pages/api/store/deploy.ts:12-24 | Deploying twice gives the same storage and the same answer as deploying once. |
| DeployFunction.Handle | supabase/functions/deploy-store/index.ts:14-140 | No store row is added or removed. The table is unchanged unless the reply is a deployment. Every error reply has a non-empty message. The reply is the preflight iff the method is OPTIONS. |
| DeployFunction.CheckPayload | supabase/functions/deploy-store/index.ts:33-63 | A missing body gives "Request body is required" and unparsable JSON "Invalid JSON payload". The checks pass iff the payload is an object with a non-empty string `storeId` and both environment variables are set, and then they yield that id. |
| DeployFunction.DeployStore | supabase/functions/deploy-store/index.ts:67-114 | The store is deployed iff the fetch succeeds, the row exists and the update succeeds. Then only its `status` becomes `deployed`, and the url is `netlify_url` when set, else the request url, `/` and the id. Otherwise the table is unchanged and the failure has a message. The update is called iff the fetch succeeded and found the row. |
| DeployFunction.PreflightTouchesNothing | supabase/functions/deploy-store/index.ts:21-24 | OPTIONS is answered with the preflight, with no database call and no change. |
| DeployFunction.BadRequestTouchesNothing | supabase/functions/deploy-store/index.ts:33-63 | Each of these fails before any database call, leaving the table unchanged: a missing body, unparsable JSON, a payload without a usable `storeId`, or a missing environment variable. |
| DeployFunction.ConnectionTestIgnored | supabase/functions/deploy-store/index.ts:68-80 | The outcome of the connection test never changes what the function does. |
| DeployFunction.MissingStoreNotUpdated | supabase/functions/deploy-store/index.ts:83-96 | A fetch error or an absent store fails with no update call and no change. |
| DeployFunction.DeploySucceeds | supabase/functions/deploy-store/index.ts:83-114 | On success only the store's `status` changes, to `deployed`. The url reported is its `netlify_url` when set, else the request url, `/` and the id. |
| GoogleSheets.FirstSheetIdFrom | src/utils/googleSheets.ts:13-13 | Finds the leftmost position at or after k where the marker followed by an id character occurs, and reports None exactly when there is none. |
| GoogleSheets.ExtractSheetId | src/utils/googleSheets.ts:13-16 | The result is None iff the expression matches nowhere. Otherwise it is the non-empty, maximal run of `[A-Za-z0-9_-]` right after the leftmost marker that has one. |
| GoogleSheets.ApiUrlRoundTrip | src/utils/googleSheets.ts:13-19 | The endpoint embeds the id verbatim: extracting the id from the endpoint URL gives back the id. |
| GoogleSheets.ApiUrlFirstMatch | src/utils/googleSheets.ts:19-19 | In the endpoint URL, the leftmost match is the marker right after `https://docs.google.com/`. |
| GoogleSheets.CloseFrom | src/utils/googleSheets.ts:24-24 | Finds where the lazy `(.*?)\);` ends, if it can, with no line terminator before the close. |
| GoogleSheets.FirstWrapperFrom | src/utils/googleSheets.ts:24-24 | Finds the leftmost position at or after k where the whole wrapper expression matches, or None when it matches nowhere. |
| GoogleSheets.UnwrapResponse | src/utils/googleSheets.ts:24-28 | Without a wrapper the result is None. With one, the result is the text between the leftmost wrapper and its first `);` when that text is non-empty, and None when it is empty. |
| GoogleSheets.UnwrappedResponseRefused | src/utils/googleSheets.ts:24-28 | A fetched page with no wrapper fails with "Failed to parse sheet data". |
| GoogleSheets.InvalidUrlRefused | src/utils/googleSheets.ts:13-16 | A URL without a usable marker fails with "Invalid Google Sheet URL", before any fetch. |
| GoogleSheets.FetchProductsFromSheet | src/utils/googleSheets.ts:10-45 | A URL with no sheet id gives "Invalid Google Sheet URL". A success needs every stage to succeed: an extracted id, a fetched page, a wrapper in it and parsed rows. The products then number as many as the rows, and product i has id `i + 1`. Conversely, a fetch error or a parser error is passed on with its message, a page without a wrapper gives "Failed to parse sheet data", and when every stage succeeds the result is exactly `RowsToProducts` of the parsed rows. |
| GoogleSheets.RowToProduct | src/utils/googleSheets.ts:35-39 | The id is the 1-based position in decimal. Name, price text, description and image are the cell's value when it is truthy, else "Untitled Product", "0", "No description available" and "/placeholder.svg". No field is empty. |
| GoogleSheets.RowsToProducts | src/utils/googleSheets.ts:34-40 | One product per row, in row order, each built from its row and 0-based position. |
| GoogleSheets.ProductIdsDistinct | src/utils/googleSheets.ts:34-35 | Row i gets id `i + 1` in decimal, so no two products share an id. |
| GoogleSheets.EmptyRowDefaults | src/utils/googleSheets.ts:36-39 | A row of missing or empty cells becomes "Untitled Product" with price text "0", "No description available" and "/placeholder.svg". |
| StoreData.PathStoreId | src/hooks/useStoreData.ts:39-48 | The store id is the prefix of the path after its leading `/`, up to but not including the first `/`. |
| StoreData.FirstIndex | src/hooks/useStoreData.ts:60-60 | Finds the first store with the id, or None exactly when no store has it. |
| StoreData.FilterByStore | src/hooks/useStoreData.ts:90-90 | A product is kept iff it is in the list and its `store_id` is the id. |
| StoreData.FilterAppend | src/hooks/useStoreData.ts:90-90 | Filtering distributes over concatenation, so stored order is kept. |
| StoreData.Failed | src/hooks/useStoreData.ts:96-105 | The error is the thrown message, or "Unknown error" when that is empty. The failure notice is shown and loading ends. |
| StoreData.FetchStoreData | src/hooks/useStoreData.ts:34-106 | Loading always ends. A redirect comes only with "Store not found". Every error comes with a notice. Without an error and with a non-empty store id, setup is complete, the current id is that id, and every product shown belongs to it. |
| StoreData.RootShowsWizard | src/hooks/useStoreData.ts:39-46 | At `/` or with no path, setup is incomplete and nothing else changes except the loading flag and the error. |
| StoreData.EmptyStoreId | src/hooks/useStoreData.ts:48-55 | A path whose first segment is empty loads nothing. |
| StoreData.UnknownStoreRedirects | src/hooks/useStoreData.ts:58-78 | No matching store gives "Store not found", the notice and the redirect home, with products and setup state unchanged. A missing or empty `stores` entry counts as no stores. |
| StoreData.KnownStoreLoads | src/hooks/useStoreData.ts:58-95 | The first matching store's template, name, id and status are shown and setup is complete. The products are exactly those with its id, in stored order. |
| StoreData.KnownStoreWithoutProducts | src/hooks/useStoreData.ts:88-93 | With no saved `products` entry, the store loads with an empty product list. |
| StoreData.BadStoresText | src/hooks/useStoreData.ts:58-105 | A `stores` text the parser rejects ends loading with the parser's message, or "Unknown error", and the failure notice. |
| Order.MoneyNoLeadingZero | src/components/Cart.tsx:28-28 | The integer part has no leading zero when it has more than one digit, as `toFixed(2)` renders it. |
| Order.Money | src/components/Cart.tsx:28-28 | An amount is digits, a point, and exactly two digits, with no line break. |
| Order.LineText | src/components/Cart.tsx:28-28 | An order line starts with the item's name and ` x`, and it is a single line whenever the name is. |
| Order.LineTextReadBack | src/components/Cart.tsx:28-28 | An order line is laid out as the name, ` x`, the quantity's digits, ` - $` and the amount. The digits read back as the quantity and the amount as price times quantity in cents. |
| Order.Message | src/components/Cart.tsx:31-31 | The message starts with the header, `Customer: <name>`, `Phone: <phone>` and the details header, and ends with a blank line and `Total: $<total>`. |
| Order.Link | src/components/Cart.tsx:33-33 | The link is `https://wa.me/`, the number and `?text=`, followed by exactly the encoded message. |
| Order.MoneyRoundTrip | src/components/Cart.tsx:28-28 | Reading a rendered amount back gives the cents it came from. |
| Order.Lines | src/components/Cart.tsx:27-29 | One order line per cart item, in cart order. |
| Order.MessageLines | src/components/Cart.tsx:27-31 | Split at its line breaks, the message is: the header, `Customer: <name>`, `Phone: <phone>`, the details header, one line per item in cart order (a single empty line for an empty cart), an empty line, and `Total: $<total>`. |
| Cart.PlaceOrder | src/components/Cart.tsx:15-37 | A link opens iff name, phone and the stored number are all non-empty. A refusal is one alert and leaves the sheet as it was. An order opens `https://wa.me/<number>?text=<encoded message>` in a new tab and only then closes the sheet. |
| Cart.PressPlaceOrder | src/components/Cart.tsx:75-98 | The order button exists iff the cart is non-empty. |
| Cart.LinkCarriesOrder | src/components/Cart.tsx:27-34 | The opened link starts with `https://wa.me/`, the number and `?text=`. Its text, decoded, reads line by line as the order. |
| CheckoutForm.HandleSubmit | src/components/CheckoutForm.tsx:12-24 | The effects are exactly three. The link to the fixed number `+919876543210` opens second, and the form closes once, last. |
| CheckoutForm.Submit | src/components/CheckoutForm.tsx:29-42 | Submitting does nothing iff the name or the phone is empty, because both inputs are `required`. |
| CheckoutForm.SameLinkAsCart | src/components/CheckoutForm.tsx:15-22 | When the stored number is the fixed one, the form opens the same link as the cart for the same order. |
| Text.NatToString | src/utils/googleSheets.ts:35-35 | The decimal text of a number is non-empty, is all digits, and has no leading zero. |
| Text.DigitsValueOfNatToString | src/utils/googleSheets.ts:35-35 | Reading the decimal text back gives the number. |
| Text.NatToStringInjective | src/pages/api/store.ts:48-48 | Different numbers have different decimal texts. |
| Text.Split | src/hooks/useStoreData.ts:48-48 | There is always a first piece. It is a prefix of the input without the separator, and the separator or the end of the input follows it. |
| Text.SplitJoin | src/components/Cart.tsx:27-29 | Splitting the join of separator-free pieces gives back the pieces. |
| Text.Lower | src/pages/api/store/deploy.ts:17-17 | Lower-casing keeps the length and lowers each character in place. |
| LocalStorage.StoreKeyInjective | src/pages/api/store.ts:51-54 | Keys of one store for different fields differ. |

## Left out

- I/O is not modelled: the Supabase client, `fetch`, `localStorage`, `window.location`, `window.open` and `reload`. Tables and storage are immutable values, and each remote call's answer is an input.
- `JSON.parse` and `JSON.stringify` are function parameters, as is `encodeURIComponent` (section 2.1 of RFC 3986). Their behaviour is not modelled, and each lemma that needs a round trip states it as a requirement.
- A non-array saved list is not modelled separately. In the page load it would make `find` or `filter` throw; it is treated as a parser `Err`.
- The price is not converted: `parseFloat` on the sheet's price cell is left out, and the product keeps the price text it would receive.
- Amounts are not floating point. `toFixed(2)` is modelled on integer cents, and the cart total (computed elsewhere in a cart context that is not part of this model) is an input.
- Text handling is ASCII only. `toLowerCase` and `\s` follow the ASCII rules plus the ASCII control whitespace; Unicode case mapping and Unicode spaces are not modelled.
- `Date.now()` is a clock-reading input. The id it yields is the reading in decimal.
- Exceptions thrown by `localStorage.getItem` or `setItem` are not modelled. This covers the 500 paths in `src/pages/api/store/deploy.ts` and the POST catch in `src/pages/api/store.ts`, except for the missing body, which is modelled.
- Non-string `storeId` values are not modelled. The edge function's payload `storeId` is modelled only as a string; in `src/pages/api/store/deploy.ts` an absent `storeId` turns into the text `undefined` in the keys.
- DeployFunction.DeployStore: the real `.single()` reports an error for a missing row. Here the fetch error is an input, and an absent row without an error takes the "Store not found" branch, as the code is written.
- StoreActions.HandleDeploy: the existence check is modelled as "some row has this id". The error `maybeSingle()` raises when several rows match is modelled only through the injected check error.
- Effects that do not change state are left out: console logging, CORS headers, the two-second delay before the redirect home in `useStoreData.ts`, and React rendering. All toasts in `useStoreActions.ts`, and the notices that carry a decision's outcome, are modelled as values.
- KeyValueApi.PostBody holds each field only as a string or `undefined`. A `null` or numeric field, which `setItem` would store as `"null"` or as the number's text, is not representable.
- GoogleSheets.Row holds each cell value only as a string. The gviz response sends numeric cells as numbers, and the number `0` is falsy, so it takes the default; the model cannot express that case, and the text `"0"` is truthy in it.

=== FILE: basics.dfy ===
/** Failure-carrying wrappers used by every handler model. */
module Basics {

  /** A value that may be absent: JavaScript's `null`/`undefined` on one side, a value on the other. */
  datatype Option<+T> = None | Some(value: T) {

    /** The wrapped value, or `default` when absent. */
    function GetOr(default: T): T {
      match this
      case Some(v) => v
      case None => default
    }
  }

  /** The outcome of a call that may throw: `Err` carries the exception's message. */
  datatype Result<+T> = Ok(value: T) | Err(message: string)

  /** JavaScript truthiness of an optional string: present and non-empty. */
  predicate Truthy(s: Option<string>) {
    s.Some? && s.value != ""
  }
}

=== FILE: cart.dfy ===
/** The cart sheet's "Place Order" action: checks the customer's details and
    the stored shopkeeper number, then opens the WhatsApp link and closes the sheet. */
module Cart {
  import opened Basics
  import opened Text
  import opened LocalStorage
  import opened Order

  /** The sheet's state: cart lines and total (from the cart context), whether
      the sheet is open, and what the customer typed. */
  datatype Sheet = Sheet(
    items: seq<CartItem>,
    totalCents: nat,
    isOpen: bool,
    customerName: string,
    customerPhone: string)

  /** The effects a click produced, and whether the sheet is open afterwards. */
  datatype Outcome = Outcome(effects: seq<Effect>, isOpen: bool)

  const MissingDetails := "Please fill in your name and phone number"
  const MissingNumber := "Store owner's WhatsApp number not found"

  /** `localStorage.getItem('shopkeeperWhatsapp') || ''`. */
  function ShopkeeperNumber(ls: Storage): string {
    GetItem(ls, "shopkeeperWhatsapp").GetOr("")
  }

  /** Some effect opens a window. */
  predicate Opens(effects: seq<Effect>) {
    exists i :: 0 <= i < |effects| && effects[i].OpenWindow?
  }

  /** The link the order goes out on. */
  function OrderLink(sheet: Sheet, ls: Storage, encode: string -> string): string {
    Link(ShopkeeperNumber(ls),
         Message(sheet.customerName, sheet.customerPhone, sheet.items, sheet.totalCents), encode)
  }

  /** `handlePlaceOrder`. A link is opened exactly when name, phone and stored
      number are all non-empty; then the sheet closes, after the link opens.
      A refusal is a single alert and leaves the sheet as it was. */
  function PlaceOrder(sheet: Sheet, ls: Storage, encode: string -> string): (o: Outcome)
    ensures Opens(o.effects) <==>
              sheet.customerName != "" && sheet.customerPhone != "" && ShopkeeperNumber(ls) != ""
    ensures !Opens(o.effects) ==> o.isOpen == sheet.isOpen && |o.effects| == 1 && o.effects[0].Alert?
    ensures Opens(o.effects) ==>
              !o.isOpen && o.effects == [OpenWindow(OrderLink(sheet, ls, encode), "_blank"), SetSheetOpen(false)]
  {
    if sheet.customerName == "" || sheet.customerPhone == "" then
      Outcome([Alert(MissingDetails)], sheet.isOpen)
    else if ShopkeeperNumber(ls) == "" then
      Outcome([Alert(MissingNumber)], sheet.isOpen)
    else
      var effects := [OpenWindow(OrderLink(sheet, ls, encode), "_blank"), SetSheetOpen(false)];
      assert effects[0].OpenWindow?;
      Outcome(effects, false)
  }

  /** The "Place Order" button is rendered only for a non-empty cart; pressing
      it is `PlaceOrder`. `None` means there is no button to press. */
  function PressPlaceOrder(sheet: Sheet, ls: Storage, encode: string -> string): (r: Option<Outcome>)
    ensures r.Some? <==> |sheet.items| > 0
  {
    if |sheet.items| > 0 then Some(PlaceOrder(sheet, ls, encode)) else None
  }

  /** The opened link is `https://wa.me/` and the stored number, then `?text=`
      and text that, under any decoder that undoes the encoding, reads line by
      line as the order: header, customer, phone, one line per cart item in cart
      order, total. */
  lemma LinkCarriesOrder(sheet: Sheet, ls: Storage, encode: string -> string, decode: string -> string)
    requires sheet.customerName != "" && sheet.customerPhone != "" && ShopkeeperNumber(ls) != ""
    requires |sheet.items| > 0
    requires '\n' !in sheet.customerName && '\n' !in sheet.customerPhone
    requires forall i :: 0 <= i < |sheet.items| ==> '\n' !in sheet.items[i].name
    requires forall text :: decode(encode(text)) == text
    ensures var o := PlaceOrder(sheet, ls, encode);
            var prefix := "https://wa.me/" + ShopkeeperNumber(ls) + "?text=";
            && o.effects[0].url[..|prefix|] == prefix
            && Split(decode(o.effects[0].url[|prefix|..]), '\n') ==
               ["New Order!", "", "Customer: " + sheet.customerName, "Phone: " + sheet.customerPhone,
                "", "Order Details:"] + Lines(sheet.items) + ["", "Total: $" + Money(sheet.totalCents)]
  {
    var m := Message(sheet.customerName, sheet.customerPhone, sheet.items, sheet.totalCents);
    var prefix := "https://wa.me/" + ShopkeeperNumber(ls) + "?text=";
    assert OrderLink(sheet, ls, encode) == prefix + encode(m);
    assert (prefix + encode(m))[|prefix|..] == encode(m);
    MessageLines(sheet.customerName, sheet.customerPhone, sheet.items, sheet.totalCents);
  }
}

=== FILE: checkout_form.dfy ===
/** The checkout form: the same order message as the cart sheet, sent to a
    fixed number, after which the form's `onClose` is called. */
module CheckoutForm {
  import opened Basics
  import opened LocalStorage
  import opened Order
  import Cart

  /** The destination the form always uses, whatever the store. */
  const FixedNumber := "+919876543210"

  /** `handleSubmit`: stop the browser's own submission, open the link, close. */
  function HandleSubmit(name: string, phone: string, items: seq<CartItem>, totalCents: nat,
                        encode: string -> string): (effects: seq<Effect>)
    ensures |effects| == 3 && effects[2] == CloseForm
    ensures forall i :: 0 <= i < 2 ==> effects[i] != CloseForm
    ensures effects[1] == OpenWindow(Link(FixedNumber, Message(name, phone, items, totalCents), encode), "_blank")
  {
    [PreventDefault,
     OpenWindow(Link(FixedNumber, Message(name, phone, items, totalCents), encode), "_blank"),
     CloseForm]
  }

  /** Submitting the form: both inputs are `required`, so the browser only
      calls `handleSubmit` when neither is empty. */
  function Submit(name: string, phone: string, items: seq<CartItem>, totalCents: nat,
                  encode: string -> string): (effects: seq<Effect>)
    ensures effects == [] <==> name == "" || phone == ""
  {
    if name == "" || phone == "" then [] else HandleSubmit(name, phone, items, totalCents, encode)
  }

  /** With the cart's stored number equal to the form's fixed one, the form
      and the cart sheet open the very same link for the same order. */
  lemma SameLinkAsCart(sheet: Cart.Sheet, ls: Storage, encode: string -> string)
    requires sheet.customerName != "" && sheet.customerPhone != ""
    requires GetItem(ls, "shopkeeperWhatsapp") == Some(FixedNumber)
    ensures Cart.PlaceOrder(sheet, ls, encode).effects[0] ==
            Submit(sheet.customerName, sheet.customerPhone, sheet.items, sheet.totalCents, encode)[1]
  {
  }
}

=== FILE: deploy_api.dfy ===
/** The `/api/store/deploy` handler: marks a `localStorage` store as deployed
    and records a public address derived from its name. */
module DeployApi {
  import opened Basics
  import opened Text
  import opened LocalStorage

  datatype Body =
    | ErrorBody(error: string)
    | DeployedBody(url: string, status: string)

  datatype Response = Response(status: nat, body: Body)

  datatype Outcome = Outcome(storage: Storage, response: Response)

  const NotAllowed := Response(405, ErrorBody("Method not allowed"))
  const NotFound := Response(404, ErrorBody("Store not found"))

  /** `s.replace(/\s+/g, '-')`: every maximal whitespace run becomes one `-`. */
  function CollapseSpaces(s: string): (r: string)
    ensures forall i :: 0 <= i < |r| ==> !IsSpace(r[i])
    ensures |r| <= |s|
    ensures (forall i :: 0 <= i < |s| ==> !IsUpper(s[i])) ==> forall i :: 0 <= i < |r| ==> !IsUpper(r[i])
    decreases |s|
  {
    if |s| == 0 then ""
    else if IsSpace(s[0]) then "-" + CollapseSpaces(s[Run(s, IsSpace)..])
    else [s[0]] + CollapseSpaces(s[1..])
  }

  const HostSuffix := ".shop.link"

  /** The host a store is published under: its name in lower case, whitespace
      runs replaced by `-`, followed by `.shop.link`. */
  function Slug(name: string): (r: string)
    ensures |HostSuffix| <= |r| <= |name| + |HostSuffix| && r[|r| - |HostSuffix|..] == HostSuffix
    ensures forall i :: 0 <= i < |r| ==> !IsSpace(r[i]) && !IsUpper(r[i])
  {
    var c := CollapseSpaces(Lower(name));
    PlainSuffix(c);
    c + HostSuffix
  }

  /** Appending the suffix keeps a text free of whitespace and capitals. */
  lemma PlainSuffix(c: string)
    requires forall i :: 0 <= i < |c| ==> !IsSpace(c[i]) && !IsUpper(c[i])
    ensures forall i :: 0 <= i < |c + HostSuffix| ==> !IsSpace((c + HostSuffix)[i]) && !IsUpper((c + HostSuffix)[i])
    ensures (c + HostSuffix)[|c|..] == HostSuffix
  {
    forall i | |c| <= i < |c + HostSuffix|
      ensures (c + HostSuffix)[i] == HostSuffix[i - |c|]
    {
    }
  }

  /** The handler: POST only; the store's name must be stored and non-empty;
      then the status and url keys are written. An absent `storeId` is spelled
      "undefined" in the keys, as a template literal does. */
  function Handler(verb: string, storeId: Option<string>, ls: Storage): (o: Outcome)
    ensures o.response.status != 200 ==> o.storage == ls
  {
    if verb != "POST" then Outcome(ls, NotAllowed)
    else
      var id := StoredText(storeId);
      var name := GetItem(ls, StoreKey(id, "name"));
      if !Truthy(name) then Outcome(ls, NotFound)
      else
        var host := Slug(name.value);
        Outcome(ls[StoreKey(id, "status") := "deployed"][StoreKey(id, "url") := host],
                Response(200, DeployedBody("https://" + host, "deployed")))
  }

  /** Text without whitespace passes through unchanged. */
  lemma {:induction false} CollapseWithoutSpaces(s: string)
    requires forall i :: 0 <= i < |s| ==> !IsSpace(s[i])
    ensures CollapseSpaces(s) == s
    decreases |s|
  {
    if |s| > 0 {
      CollapseWithoutSpaces(s[1..]);
      assert [s[0]] + s[1..] == s;
    }
  }

  /** Replacing runs twice is replacing them once. */
  lemma CollapseIdempotent(s: string)
    ensures CollapseSpaces(CollapseSpaces(s)) == CollapseSpaces(s)
  {
    CollapseWithoutSpaces(CollapseSpaces(s));
  }

  /** A string that starts with a whitespace run of length `k` collapses to
      `-` followed by the collapse of what comes after the run. */
  lemma CollapseAfterRun(s: string, k: nat)
    requires 0 < k <= |s|
    requires forall i :: 0 <= i < k ==> IsSpace(s[i])
    requires k < |s| ==> !IsSpace(s[k])
    ensures CollapseSpaces(s) == "-" + CollapseSpaces(s[k..])
  {
    RunUnique(s, IsSpace, k);
  }

  /** A non-space first character is copied and the rest collapses on its own. */
  lemma CollapseAfterChar(c: char, t: string)
    requires !IsSpace(c)
    ensures CollapseSpaces([c] + t) == [c] + CollapseSpaces(t)
  {
    assert ([c] + t)[1..] == t;
  }

  /** A maximal whitespace run `w` between `a` and `b` becomes exactly one `-`,
      and the text on either side is treated independently. */
  lemma {:induction false} CollapseRun(a: string, w: string, b: string)
    requires |w| > 0 && forall i :: 0 <= i < |w| ==> IsSpace(w[i])
    requires |a| > 0 ==> !IsSpace(a[|a| - 1])
    requires |b| > 0 ==> !IsSpace(b[0])
    ensures CollapseSpaces(a + w + b) == CollapseSpaces(a) + "-" + CollapseSpaces(b)
    decreases |a|, 1
  {
    if |a| == 0 {
      assert a + w + b == w + b;
      assert (w + b)[|w|..] == b;
      CollapseAfterRun(w + b, |w|);
    } else if !IsSpace(a[0]) {
      CollapseRunAfterChar(a, w, b);
    } else {
      CollapseRunAfterRun(a, w, b);
    }
  }

  /** `CollapseRun` when `a` starts with a non-space character. */
  lemma {:induction false} CollapseRunAfterChar(a: string, w: string, b: string)
    requires |a| > 0 && !IsSpace(a[0])
    requires |w| > 0 && forall i :: 0 <= i < |w| ==> IsSpace(w[i])
    requires !IsSpace(a[|a| - 1])
    requires |b| > 0 ==> !IsSpace(b[0])
    ensures CollapseSpaces(a + w + b) == CollapseSpaces(a) + "-" + CollapseSpaces(b)
    decreases |a|, 0
  {
    var t := a[1..];
    assert |t| > 0 ==> t[|t| - 1] == a[|a| - 1];
    CollapseRun(t, w, b);
    assert a + w + b == a + (w + b);
    assert t + w + b == t + (w + b);
    CollapseCons(a, w + b);
    Regroup([a[0]], CollapseSpaces(t), CollapseSpaces(b));
  }

  /** Peeling a non-space first character off `a` and off `a + rest`. */
  lemma CollapseCons(a: string, rest: string)
    requires |a| > 0 && !IsSpace(a[0])
    ensures CollapseSpaces(a + rest) == [a[0]] + CollapseSpaces(a[1..] + rest)
    ensures CollapseSpaces(a) == [a[0]] + CollapseSpaces(a[1..])
  {
    assert a + rest == [a[0]] + (a[1..] + rest);
    CollapseAfterChar(a[0], a[1..] + rest);
    assert a == [a[0]] + a[1..];
    CollapseAfterChar(a[0], a[1..]);
  }

  /** `CollapseRun` when `a` starts with whitespace. */
  lemma {:induction false} CollapseRunAfterRun(a: string, w: string, b: string)
    requires |a| > 0 && IsSpace(a[0])
    requires |w| > 0 && forall i :: 0 <= i < |w| ==> IsSpace(w[i])
    requires !IsSpace(a[|a| - 1])
    requires |b| > 0 ==> !IsSpace(b[0])
    ensures CollapseSpaces(a + w + b) == CollapseSpaces(a) + "-" + CollapseSpaces(b)
    decreases |a|, 0
  {
    var k := Run(a, IsSpace);
    var inner := CollapseSpaces(a[k..]);
    var right := CollapseSpaces(b);
    assert CollapseSpaces(a[k..] + w + b) == inner + "-" + right by {
      CollapseRun(a[k..], w, b);
    }
    assert CollapseSpaces(a + w + b) == "-" + CollapseSpaces(a[k..] + w + b) by {
      assert (a + w + b)[k..] == a[k..] + w + b;
      CollapseAfterRun(a + w + b, k);
    }
    assert CollapseSpaces(a) == "-" + inner by {
      CollapseAfterRun(a, k);
    }
    Regroup("-", inner, right);
  }

  lemma Regroup(x: string, inner: string, right: string)
    ensures x + (inner + "-" + right) == x + inner + "-" + right
  {
  }

  /** Lower-casing keeps whitespace exactly where it was. */
  lemma LowerKeepsSpaces(s: string)
    ensures forall i :: 0 <= i < |s| ==> (IsSpace(Lower(s)[i]) <==> IsSpace(s[i]))
  {
  }

  /** Lower-casing works piece by piece. */
  lemma LowerAppend(a: string, b: string)
    ensures Lower(a + b) == Lower(a) + Lower(b)
  {
    assert forall i :: 0 <= i < |a + b| ==> Lower(a + b)[i] == (Lower(a) + Lower(b))[i];
  }

  /** A name without whitespace is published as its lower-case form. */
  lemma SlugPlain(name: string)
    requires forall i :: 0 <= i < |name| ==> !IsSpace(name[i])
    ensures Slug(name) == Lower(name) + HostSuffix
  {
    LowerKeepsSpaces(name);
    CollapseWithoutSpaces(Lower(name));
  }

  /** A maximal whitespace run in the name becomes one `-` in the host, and the
      two sides are published on their own. */
  lemma SlugRun(a: string, w: string, b: string)
    requires |w| > 0 && forall i :: 0 <= i < |w| ==> IsSpace(w[i])
    requires |a| > 0 ==> !IsSpace(a[|a| - 1])
    requires |b| > 0 ==> !IsSpace(b[0])
    ensures Slug(a + w + b) == CollapseSpaces(Lower(a)) + "-" + CollapseSpaces(Lower(b)) + HostSuffix
  {
    LowerAppend(a, w);
    LowerAppend(a + w, b);
    LowerKeepsSpaces(a);
    LowerKeepsSpaces(w);
    LowerKeepsSpaces(b);
    CollapseRun(Lower(a), Lower(w), Lower(b));
  }

  /** Any method but POST gets 405 and nothing is written. */
  lemma NonPostRefused(verb: string, storeId: Option<string>, ls: Storage)
    requires verb != "POST"
    ensures Handler(verb, storeId, ls) == Outcome(ls, NotAllowed)
  {
  }

  /** A missing or empty name gives 404 and writes neither key. */
  lemma MissingNameNotFound(storeId: Option<string>, ls: Storage)
    requires !Truthy(GetItem(ls, StoreKey(StoredText(storeId), "name")))
    ensures Handler("POST", storeId, ls) == Outcome(ls, NotFound)
  {
  }

  /** On success the status key says `deployed`, the url key holds the slug,
      the answer's url is `https://` and the slug, and every other key keeps
      its value. */
  lemma DeploySucceeds(storeId: Option<string>, ls: Storage)
    requires Truthy(GetItem(ls, StoreKey(StoredText(storeId), "name")))
    ensures var id := StoredText(storeId);
            var host := Slug(ls[StoreKey(id, "name")]);
            var o := Handler("POST", storeId, ls);
            && o.response == Response(200, DeployedBody("https://" + host, "deployed"))
            && o.storage.Keys == ls.Keys + {StoreKey(id, "status"), StoreKey(id, "url")}
            && o.storage[StoreKey(id, "status")] == "deployed"
            && o.storage[StoreKey(id, "url")] == host
            && forall k :: k in ls && k != StoreKey(id, "status") && k != StoreKey(id, "url") ==>
                 o.storage[k] == ls[k]
  {
    StoreKeyInjective(StoredText(storeId), "status", "url");
  }

  /** Deploying twice leaves the same storage and answer as deploying once:
      the second run reads the same name and derives the same slug. */
  lemma DeployIdempotent(storeId: Option<string>, ls: Storage)
    ensures var once := Handler("POST", storeId, ls);
            Handler("POST", storeId, once.storage) == once
  {
    var id := StoredText(storeId);
    StoreKeyInjective(id, "name", "status");
    StoreKeyInjective(id, "name", "url");
  }
}

=== FILE: deploy_function.dfy ===
/** The `deploy-store` edge function: validates its JSON payload, looks the
    store up in the `stores` table, sets its status to `deployed`, and answers
    with the store's public address. */
module DeployFunction {
  import opened Basics

  /** A row of the `stores` table, with the columns the function reads or writes. */
  datatype StoreRow = StoreRow(
    name: string,
    template: string,
    whatsapp: string,
    status: string,
    netlifyUrl: Option<string>)

  /** The `stores` table, keyed by id. */
  type Stores = map<string, StoreRow>

  /** The parsed payload: `null`, an object (with its `storeId` member when
      that is a string), or any other JSON value. */
  datatype Payload = PayloadNull | PayloadObject(storeId: Option<string>) | PayloadOther

  /** The HTTP method, the body text (`None` when there is no body), and `req.url`. */
  datatype Request = Request(verb: string, body: Option<string>, url: string)

  /** `SUPABASE_URL` and `SUPABASE_SERVICE_ROLE_KEY`. */
  datatype Env = Env(supabaseUrl: Option<string>, serviceKey: Option<string>)

  /** What the database answers: whether the connection test succeeded, and the
      error messages (if any) of the store fetch and of the update. */
  datatype Replies = Replies(connectionOk: bool, fetchError: Option<string>, updateError: Option<string>)

  /** The database calls the function makes, in order. */
  datatype Call = TestConnection | FetchStore(id: string) | UpdateStatus(id: string)

  datatype Reply =
    | Preflight
    | Deployed(url: string)
    | Failed(message: string)

  datatype Outcome = Outcome(stores: Stores, calls: seq<Call>, reply: Reply)

  const NullPayloadMessage := "Cannot read properties of null (reading 'storeId')"

  /** `error.message || 'Internal server error'`. */
  function ErrorText(message: string): string {
    if message == "" then "Internal server error" else message
  }

  /** The checks that run before the database is touched; `Ok` carries the store id. */
  function CheckPayload(req: Request, env: Env, parse: string -> Option<Payload>): (r: Result<string>)
    ensures req.body.None? ==> r == Err("Request body is required")
    ensures req.body.Some? && parse(req.body.value).None? ==> r == Err("Invalid JSON payload")
    ensures r.Ok? ==>
              && req.body.Some? && parse(req.body.value) == Some(PayloadObject(Some(r.value))) && r.value != ""
              && Truthy(env.supabaseUrl) && Truthy(env.serviceKey)
    ensures forall id ::
              (&& req.body.Some? && parse(req.body.value) == Some(PayloadObject(Some(id))) && id != ""
               && Truthy(env.supabaseUrl) && Truthy(env.serviceKey)) ==> r == Ok(id)
  {
    match req.body
    case None => Err("Request body is required")
    case Some(text) =>
      match parse(text)
      case None => Err("Invalid JSON payload")
      case Some(PayloadNull) => Err(NullPayloadMessage)
      case Some(PayloadOther) => Err("storeId is required in the payload")
      case Some(PayloadObject(storeId)) =>
        if !Truthy(storeId) then Err("storeId is required in the payload")
        else if !Truthy(env.supabaseUrl) || !Truthy(env.serviceKey) then
          Err("Missing required environment variables")
        else Ok(storeId.value)
  }

  /** The address reported for a deployed store: its `netlify_url` when that
      is set, else the request url followed by `/` and the id. */
  function PublicUrl(row: StoreRow, reqUrl: string, id: string): string {
    if Truthy(row.netlifyUrl) then row.netlifyUrl.value else reqUrl + "/" + id
  }

  /** Everything after the payload checks: connection test (its result is only
      logged), fetch, update, reply. */
  function DeployStore(id: string, reqUrl: string, db: Stores, replies: Replies): (o: Outcome)
    ensures o.reply.Deployed? <==> replies.fetchError.None? && id in db && replies.updateError.None?
    ensures o.reply.Deployed? ==>
              && o.stores == db[id := db[id].(status := "deployed")]
              && o.reply.url == (if Truthy(db[id].netlifyUrl) then db[id].netlifyUrl.value else reqUrl + "/" + id)
    ensures !o.reply.Deployed? ==> o.stores == db && o.reply.Failed? && o.reply.message != ""
    ensures UpdateStatus(id) in o.calls <==> replies.fetchError.None? && id in db
  {
    var fetched := [TestConnection, FetchStore(id)];
    if replies.fetchError.Some? then Outcome(db, fetched, Failed(ErrorText(replies.fetchError.value)))
    else if id !in db then Outcome(db, fetched, Failed("Store not found"))
    else
      var calls := fetched + [UpdateStatus(id)];
      if replies.updateError.Some? then Outcome(db, calls, Failed(ErrorText(replies.updateError.value)))
      else
        var row := db[id];
        Outcome(db[id := row.(status := "deployed")], calls, Deployed(PublicUrl(row, reqUrl, id)))
  }

  /** The request handler. */
  function Handle(req: Request, env: Env, parse: string -> Option<Payload>, db: Stores, replies: Replies): (o: Outcome)
    ensures o.stores.Keys == db.Keys
    ensures !o.reply.Deployed? ==> o.stores == db
    ensures o.reply.Failed? ==> o.reply.message != ""
    ensures o.reply.Preflight? <==> req.verb == "OPTIONS"
  {
    if req.verb == "OPTIONS" then Outcome(db, [], Preflight)
    else
      match CheckPayload(req, env, parse)
      case Err(message) => Outcome(db, [], Failed(message))
      case Ok(id) => DeployStore(id, req.url, db, replies)
  }

  /** OPTIONS is answered at once: the body is not read and the database is not called. */
  lemma PreflightTouchesNothing(req: Request, env: Env, parse: string -> Option<Payload>, db: Stores, replies: Replies)
    requires req.verb == "OPTIONS"
    ensures Handle(req, env, parse, db, replies) == Outcome(db, [], Preflight)
  {
  }

  /** A missing body, unparsable JSON, a payload without a usable `storeId`, or
      missing environment variables each fail before any database call. */
  lemma BadRequestTouchesNothing(req: Request, env: Env, parse: string -> Option<Payload>, db: Stores, replies: Replies)
    requires req.verb != "OPTIONS"
    requires req.body.None?
          || parse(req.body.value).None?
          || !parse(req.body.value).value.PayloadObject?
          || !Truthy(parse(req.body.value).value.storeId)
          || !Truthy(env.supabaseUrl) || !Truthy(env.serviceKey)
    ensures var o := Handle(req, env, parse, db, replies);
            o.reply.Failed? && o.calls == [] && o.stores == db
  {
  }

  /** The connection test's result never changes what the function does. */
  lemma ConnectionTestIgnored(req: Request, env: Env, parse: string -> Option<Payload>, db: Stores, replies: Replies)
    ensures Handle(req, env, parse, db, replies.(connectionOk := true)) ==
            Handle(req, env, parse, db, replies.(connectionOk := false))
  {
  }

  /** A fetch error or a store that is not there fails without an update. */
  lemma MissingStoreNotUpdated(id: string, reqUrl: string, db: Stores, replies: Replies)
    requires replies.fetchError.Some? || id !in db
    ensures var o := DeployStore(id, reqUrl, db, replies);
            o.reply.Failed? && o.stores == db && UpdateStatus(id) !in o.calls
  {
  }

  /** On success only the store's `status` changes, to `deployed`, and the
      reported url is its `netlify_url` when set, else derived from the request. */
  lemma DeploySucceeds(req: Request, env: Env, parse: string -> Option<Payload>, db: Stores, replies: Replies)
    requires req.verb != "OPTIONS"
    requires CheckPayload(req, env, parse).Ok?
    requires CheckPayload(req, env, parse).value in db
    requires replies.fetchError.None? && replies.updateError.None?
    ensures var id := CheckPayload(req, env, parse).value;
            var row := db[id];
            var o := Handle(req, env, parse, db, replies);
            && o.stores.Keys == db.Keys
            && o.stores[id].status == "deployed"
            && o.stores[id] == row.(status := "deployed")
            && (forall k :: k in db && k != id ==> o.stores[k] == db[k])
            && o.calls == [TestConnection, FetchStore(id), UpdateStatus(id)]
            && o.reply == Deployed(if Truthy(row.netlifyUrl) then row.netlifyUrl.value else req.url + "/" + id)
  {
  }
}

=== FILE: google_sheets.dfy ===
/** The spreadsheet import adapter: finds the sheet id in a Google Sheets URL,
    asks the sheet's JSON endpoint for its rows, unwraps the JavaScript
    callback around the JSON, and turns each row into a product. */
module GoogleSheets {
  import opened Basics
  import opened Text

  /** The characters of the class `[a-zA-Z0-9-_]`. */
  predicate IsIdChar(c: char) {
    'a' <= c <= 'z' || 'A' <= c <= 'Z' || '0' <= c <= '9' || c == '-' || c == '_'
  }

  const SheetMarker := "spreadsheets/d/"

  /** `/spreadsheets\/d\/([a-zA-Z0-9-_]+)/` can match at index `k`: the marker
      is there and at least one id character follows it. */
  predicate SheetIdAt(url: string, k: nat) {
    OccursAt(url, k, SheetMarker) && k + |SheetMarker| < |url| && IsIdChar(url[k + |SheetMarker|])
  }

  /** The leftmost index at or after `k` where the sheet-id expression matches. */
  function FirstSheetIdFrom(url: string, k: nat): (r: Option<nat>)
    ensures r.Some? ==> k <= r.value && SheetIdAt(url, r.value)
    ensures r.Some? ==> forall j: nat :: k <= j < r.value ==> !SheetIdAt(url, j)
    ensures r.None? ==> forall j: nat :: k <= j ==> !SheetIdAt(url, j)
    decreases |url| - k
  {
    if k >= |url| then None
    else if SheetIdAt(url, k) then Some(k)
    else FirstSheetIdFrom(url, k + 1)
  }

  /** The id the regular expression captures: the maximal run of id characters
      after the leftmost marker that has at least one. */
  function ExtractSheetId(url: string): (r: Option<string>)
    ensures r.None? <==> (forall k: nat :: !SheetIdAt(url, k))
    ensures r.Some? ==> 0 < |r.value| && forall i :: 0 <= i < |r.value| ==> IsIdChar(r.value[i])
    ensures r.Some? ==>
              var start := FirstSheetIdFrom(url, 0).value + |SheetMarker|;
              && start + |r.value| <= |url|
              && url[start..start + |r.value|] == r.value
              && (start + |r.value| == |url| || !IsIdChar(url[start + |r.value|]))
  {
    match FirstSheetIdFrom(url, 0)
    case None => None
    case Some(k) =>
      var start := k + |SheetMarker|;
      var n := Run(url[start..], IsIdChar);
      assert url[start..][..n] == url[start..start + n];
      Some(url[start..start + n])
  }

  /** The gviz JSON endpoint of a sheet:
      `https://docs.google.com/spreadsheets/d/<id>/gviz/tq?tqx=out:json`. */
  function ApiUrl(sheetId: string): string {
    ApiHead + SheetMarker + sheetId + ApiTail
  }

  const ApiHead := "https://docs.google.com/"
  const ApiTail := "/gviz/tq?tqx=out:json"

  const Wrapper := "google.visualization.Query.setResponse("

  /** JavaScript's line terminators, which `.` does not match. */
  predicate IsLineTerminator(c: char) {
    c == '\n' || c == '\r' || c == ' ' || c == ' '
  }

  /** The lazy `(.*?)\);` starting at `j` ends at index `e`: `);` is there and
      nothing between `j` and `e` is a line terminator or an earlier `);`. */
  predicate ClosesAt(text: string, j: nat, e: nat) {
    && j <= e
    && OccursAt(text, e, ");")
    && (forall i :: j <= i < e ==> !IsLineTerminator(text[i]) && !OccursAt(text, i, ");"))
  }

  /** Where the lazy `(.*?)\);` starting at `j` ends, if it can. */
  function CloseFrom(text: string, j: nat): (r: Option<nat>)
    ensures r.Some? ==> ClosesAt(text, j, r.value)
    ensures r.None? ==> forall e: nat :: !ClosesAt(text, j, e)
    decreases |text| - j
  {
    if OccursAt(text, j, ");") then Some(j)
    else if j < |text| && !IsLineTerminator(text[j]) then
      var r := CloseFrom(text, j + 1);
      assert forall e: nat :: ClosesAt(text, j, e) ==> ClosesAt(text, j + 1, e);
      r
    else
      assert forall e: nat :: ClosesAt(text, j, e) ==> e == j;
      None
  }

  /** The wrapper regular expression can match at index `i`. */
  predicate WrapperAt(text: string, i: nat) {
    OccursAt(text, i, Wrapper) && CloseFrom(text, i + |Wrapper|).Some?
  }

  /** The leftmost index at or after `k` where the wrapper expression matches. */
  function FirstWrapperFrom(text: string, k: nat): (r: Option<nat>)
    ensures r.Some? ==> k <= r.value && WrapperAt(text, r.value)
    ensures r.Some? ==> forall j: nat :: k <= j < r.value ==> !WrapperAt(text, j)
    ensures r.None? ==> forall j: nat :: k <= j ==> !WrapperAt(text, j)
    decreases |text| - k
  {
    if k >= |text| then None
    else if WrapperAt(text, k) then Some(k)
    else FirstWrapperFrom(text, k + 1)
  }

  /** The JSON text inside `google.visualization.Query.setResponse(...);` at the
      leftmost place the wrapper matches; `None` when it matches nowhere or the
      captured text is empty (both make `!jsonString` true). */
  function UnwrapResponse(text: string): (r: Option<string>)
    ensures (forall i: nat :: !WrapperAt(text, i)) ==> r.None?
    ensures r.Some? ==> FirstWrapperFrom(text, 0).Some? &&
                        CapturedAt(text, FirstWrapperFrom(text, 0).value + |Wrapper|, r.value)
    ensures FirstWrapperFrom(text, 0).Some? ==>
              var j := FirstWrapperFrom(text, 0).value + |Wrapper|;
              && CloseFrom(text, j).Some? && j <= CloseFrom(text, j).value <= |text|
              && (CloseFrom(text, j).value > j ==> r == Some(text[j..CloseFrom(text, j).value]))
              && (CloseFrom(text, j).value == j ==> r.None?)
  {
    match FirstWrapperFrom(text, 0)
    case None => None
    case Some(i) =>
      CloseWithin(text, i + |Wrapper|, CloseFrom(text, i + |Wrapper|).value);
      CaptureFrom(text, i + |Wrapper|)
  }

  /** `json` is a non-empty capture of the lazy `(.*?)\);` starting at `j`. */
  predicate CapturedAt(text: string, j: nat, json: string) {
    && json != ""
    && ClosesAt(text, j, j + |json|)
    && json == text[j..j + |json|]
  }

  /** The text the lazy `(.*?)` captures from `j`, when the close is found and
      the capture is not empty. */
  function CaptureFrom(text: string, j: nat): (r: Option<string>)
    ensures r.Some? ==> CapturedAt(text, j, r.value)
  {
    match CloseFrom(text, j)
    case None => None
    case Some(e) =>
      CloseWithin(text, j, e);
      var json := text[j..e];
      if json == "" then None else Some(json)
  }

  /** A close found from `j` lies between `j` and the end of the text. */
  lemma CloseWithin(text: string, j: nat, e: nat)
    requires ClosesAt(text, j, e)
    ensures j <= e <= |text|
  {
  }

  /** One sheet row: the `v` of each cell, `None` for a null cell or value. */
  type Row = seq<Option<string>>

  /** A product drafted from a sheet row. The price is kept as the text
      `parseFloat` receives. */
  datatype Product = Product(id: string, name: string, priceText: string, description: string, image: string)

  const UntitledName := "Untitled Product"
  const NoDescription := "No description available"
  const PlaceholderImage := "/placeholder.svg"

  /** `row.c[k]?.v || fallback`: the cell's value when present and non-empty. */
  function CellOr(row: Row, k: nat, fallback: string): string {
    if k < |row| && Truthy(row[k]) then row[k].value else fallback
  }

  /** The product for the row at 0-based position `index`. */
  function RowToProduct(row: Row, index: nat): (p: Product)
    ensures p.id == NatToString(index + 1)
    ensures p.name != "" && p.priceText != "" && p.description != "" && p.image != ""
    ensures 0 < |row| && Truthy(row[0]) ==> p.name == row[0].value
    ensures !(0 < |row| && Truthy(row[0])) ==> p.name == UntitledName
    ensures 1 < |row| && Truthy(row[1]) ==> p.priceText == row[1].value
    ensures !(1 < |row| && Truthy(row[1])) ==> p.priceText == "0"
    ensures 2 < |row| && Truthy(row[2]) ==> p.description == row[2].value
    ensures !(2 < |row| && Truthy(row[2])) ==> p.description == NoDescription
    ensures 3 < |row| && Truthy(row[3]) ==> p.image == row[3].value
    ensures !(3 < |row| && Truthy(row[3])) ==> p.image == PlaceholderImage
  {
    Product(NatToString(index + 1),
            CellOr(row, 0, UntitledName),
            CellOr(row, 1, "0"),
            CellOr(row, 2, NoDescription),
            CellOr(row, 3, PlaceholderImage))
  }

  /** `rows.map(...)`: one product per row, in row order. */
  function RowsToProducts(rows: seq<Row>): (ps: seq<Product>)
    ensures |ps| == |rows|
    ensures forall i :: 0 <= i < |rows| ==> ps[i] == RowToProduct(rows[i], i)
  {
    seq(|rows|, i requires 0 <= i < |rows| => RowToProduct(rows[i], i))
  }

  /** `fetchProductsFromSheet`: the page fetch and `JSON.parse` (with its
      `.table.rows` lookup) are supplied; each answers `Err` where it throws. */
  function FetchProductsFromSheet(sheetUrl: string, fetch: string -> Result<string>,
                                  parseRows: string -> Result<seq<Row>>): (r: Result<seq<Product>>)
    ensures ExtractSheetId(sheetUrl).None? ==> r == Err("Invalid Google Sheet URL")
    ensures r.Ok? ==>
              && ExtractSheetId(sheetUrl).Some?
              && fetch(ApiUrl(ExtractSheetId(sheetUrl).value)).Ok?
              && var text := fetch(ApiUrl(ExtractSheetId(sheetUrl).value)).value;
                 && UnwrapResponse(text).Some?
                 && parseRows(UnwrapResponse(text).value).Ok?
                 && var rows := parseRows(UnwrapResponse(text).value).value;
                    && |r.value| == |rows|
                    && forall i :: 0 <= i < |rows| ==> r.value[i].id == NatToString(i + 1)
    ensures ExtractSheetId(sheetUrl).Some? ==>
              var reply := fetch(ApiUrl(ExtractSheetId(sheetUrl).value));
              && (reply.Err? ==> r == Err(reply.message))
              && (reply.Ok? && UnwrapResponse(reply.value).None? ==> r == Err("Failed to parse sheet data"))
              && (reply.Ok? && UnwrapResponse(reply.value).Some? ==>
                    var parsed := parseRows(UnwrapResponse(reply.value).value);
                    && (parsed.Err? ==> r == Err(parsed.message))
                    && (parsed.Ok? ==> r == Ok(RowsToProducts(parsed.value))))
  {
    match ExtractSheetId(sheetUrl)
    case None => Err("Invalid Google Sheet URL")
    case Some(sheetId) =>
      match fetch(ApiUrl(sheetId))
      case Err(m) => Err(m)
      case Ok(text) =>
        match UnwrapResponse(text)
        case None => Err("Failed to parse sheet data")
        case Some(json) =>
          match parseRows(json)
          case Err(m) => Err(m)
          case Ok(rows) => Ok(RowsToProducts(rows))
  }

  /** Product ids are "1", "2", ... in row order, so no two coincide. */
  lemma ProductIdsDistinct(rows: seq<Row>)
    ensures var ps := RowsToProducts(rows);
            forall i, j :: 0 <= i < j < |ps| ==> ps[i].id != ps[j].id
  {
    var ps := RowsToProducts(rows);
    forall i, j | 0 <= i < j < |ps|
      ensures ps[i].id != ps[j].id
    {
      NatToStringInjective(i + 1, j + 1);
    }
  }

  /** Missing or empty cells take their defaults; an all-empty row becomes an
      untitled product with price text "0", no description and the placeholder image. */
  lemma EmptyRowDefaults(row: Row, index: nat)
    requires forall k :: 0 <= k < |row| ==> !Truthy(row[k])
    ensures RowToProduct(row, index) ==
            Product(NatToString(index + 1), UntitledName, "0", NoDescription, PlaceholderImage)
  {
  }

  /** A URL without a usable marker is refused before anything is fetched. */
  lemma InvalidUrlRefused(sheetUrl: string, fetch: string -> Result<string>, parseRows: string -> Result<seq<Row>>)
    requires forall k: nat :: !SheetIdAt(sheetUrl, k)
    ensures FetchProductsFromSheet(sheetUrl, fetch, parseRows) == Err("Invalid Google Sheet URL")
  {
  }

  /** A response with no wrapper anywhere fails with "Failed to parse sheet data". */
  lemma UnwrappedResponseRefused(sheetUrl: string, fetch: string -> Result<string>,
                                 parseRows: string -> Result<seq<Row>>)
    requires ExtractSheetId(sheetUrl).Some?
    requires fetch(ApiUrl(ExtractSheetId(sheetUrl).value)).Ok?
    requires forall i: nat :: !WrapperAt(fetch(ApiUrl(ExtractSheetId(sheetUrl).value)).value, i)
    ensures FetchProductsFromSheet(sheetUrl, fetch, parseRows) == Err("Failed to parse sheet data")
  {
  }

  /** No `s` directly followed by `p` in the fixed head of the endpoint URL. */
  lemma ApiHeadHasNoMarker()
    ensures forall j :: 0 <= j < |ApiHead| - 1 ==> !(ApiHead[j] == 's' && ApiHead[j + 1] == 'p')
  {
  }

  /** Where the three parts of `a + b + c` sit. */
  lemma Parts(a: string, b: string, c: string)
    ensures forall i :: 0 <= i < |a| ==> (a + b + c)[i] == a[i]
    ensures (a + b + c)[|a|..|a| + |b|] == b
    ensures (a + b + c)[|a| + |b|..] == c
  {
  }

  /** The endpoint URL as its head, the marker, and the id with the tail. */
  lemma ApiUrlParts(sheetId: string)
    ensures var url := ApiUrl(sheetId);
            && (forall i :: 0 <= i < |ApiHead| ==> url[i] == ApiHead[i])
            && url[|ApiHead|..|ApiHead| + |SheetMarker|] == SheetMarker
            && url[|ApiHead| + |SheetMarker|..] == sheetId + ApiTail
  {
    assert ApiUrl(sheetId) == ApiHead + SheetMarker + (sheetId + ApiTail);
    Parts(ApiHead, SheetMarker, sheetId + ApiTail);
  }

  /** The marker does not occur in the endpoint URL before the id's own marker. */
  lemma NoEarlierMarker(sheetId: string, j: nat)
    requires j < |ApiHead|
    ensures !OccursAt(ApiUrl(sheetId), j, SheetMarker)
  {
    var url := ApiUrl(sheetId);
    if OccursAt(url, j, SheetMarker) {
      assert url[j] == 's' && url[j + 1] == 'p' by {
        assert url[j..j + |SheetMarker|] == SheetMarker;
        assert url[j..j + |SheetMarker|][0] == url[j];
        assert url[j..j + |SheetMarker|][1] == url[j + 1];
      }
      ApiUrlParts(sheetId);
      ApiHeadHasNoMarker();
    }
  }

  /** The endpoint URL's leftmost match is at the marker right after its head. */
  lemma ApiUrlFirstMatch(sheetId: string)
    requires 0 < |sheetId| && IsIdChar(sheetId[0])
    ensures FirstSheetIdFrom(ApiUrl(sheetId), 0) == Some(|ApiHead|)
  {
    var url := ApiUrl(sheetId);
    forall j: nat | j < |ApiHead|
      ensures !SheetIdAt(url, j)
    {
      NoEarlierMarker(sheetId, j);
    }
    ApiUrlParts(sheetId);
    var start := |ApiHead| + |SheetMarker|;
    assert url[start] == url[start..][0] == sheetId[0];
    assert SheetIdAt(url, |ApiHead|);
    FirstMatchAt(url, |ApiHead|);
  }

  /** A match at `k` with none before it is the leftmost one. */
  lemma {:induction false} FirstMatchAt(url: string, k: nat)
    requires SheetIdAt(url, k)
    requires forall j: nat :: j < k ==> !SheetIdAt(url, j)
    ensures FirstSheetIdFrom(url, 0) == Some(k)
  {
    var r := FirstSheetIdFrom(url, 0);
    assert r.Some?;
    assert !(r.value < k);
    assert !(k < r.value);
  }

  /** The endpoint embeds the id verbatim: extracting the id from the endpoint
      URL gives back the id it was built from. */
  lemma ApiUrlRoundTrip(sheetId: string)
    requires 0 < |sheetId|
    requires forall i :: 0 <= i < |sheetId| ==> IsIdChar(sheetId[i])
    ensures ExtractSheetId(ApiUrl(sheetId)) == Some(sheetId)
  {
    var url := ApiUrl(sheetId);
    ApiUrlFirstMatch(sheetId);
    ApiUrlParts(sheetId);
    var start := |ApiHead| + |SheetMarker|;
    var rest := sheetId + ApiTail;
    assert url[start..] == rest;
    assert rest[|sheetId|] == ApiTail[0] == '/';
    RunUnique(rest, IsIdChar, |sheetId|);
    assert url[start..start + |sheetId|] == rest[..|sheetId|] == sheetId;
  }
}

=== FILE: key_value_api.dfy ===
/** The `/api/store` handler: stores and reads back a store's fields in
    `localStorage`, both under per-store keys and under four "default" keys
    that always hold the most recently created store. */
module KeyValueApi {
  import opened Basics
  import opened Text
  import opened LocalStorage

  /** A JSON document, as far as the handler needs to see one. */
  datatype Json =
    | JNull
    | JBool(b: bool)
    | JNumber(n: int)
    | JString(s: string)
    | JArray(items: seq<Json>)
    | JObject(members: seq<(string, Json)>)

  /** JavaScript truthiness of a JSON value (`NaN` is not modelled). */
  predicate JsonTruthy(j: Json) {
    match j
    case JNull => false
    case JBool(b) => b
    case JNumber(n) => n != 0
    case JString(s) => s != ""
    case _ => true
  }

  /** `JSON.stringify` and `JSON.parse`; `parse` answers `None` where it throws. */
  datatype Codec = Codec(stringify: Json -> string, parse: string -> Option<Json>)

  /** The fields the handler destructures from a POST body; `None` is `undefined`. */
  datatype PostBody = PostBody(
    name: Option<string>,
    template: Option<string>,
    whatsapp: Option<string>,
    products: Option<Json>)

  /** the HTTP method (`verb`), the `storeId` query parameter, and the parsed body (`None` when absent). */
  datatype Request = Request(verb: string, storeId: Option<string>, body: Option<PostBody>)

  datatype Body =
    | ErrorBody(error: string)
    | StoreBody(id: Option<string>, name: Option<string>, template: Option<string>,
                products: Json, whatsapp: Option<string>)
    | CreatedBody(newId: string, name: Option<string>, template: Option<string>,
                  whatsapp: Option<string>, posted: Option<Json>, url: string)

  datatype Response = Response(status: nat, body: Body)

  /** What the handler reads from its surroundings: `VITE_APP_URL`, the
      page origin, and `Date.now()`. */
  datatype Env = Env(appUrl: Option<string>, origin: string, now: nat)

  datatype Outcome = Outcome(storage: Storage, response: Response)

  const DefaultName := "storeName"
  const DefaultTemplate := "storeTemplate"
  const DefaultWhatsapp := "shopkeeperWhatsapp"
  const DefaultProducts := "storeProducts"

  const NotFound := Response(404, ErrorBody("Store not found"))
  const FetchFailed := Response(500, ErrorBody("Failed to fetch store data"))
  const CreateFailed := Response(500, ErrorBody("Failed to create store"))
  const NotAllowed := Response(405, ErrorBody("Method not allowed"))

  /** `JSON.parse(localStorage.getItem(key) || '[]')`. */
  function ReadProducts(ls: Storage, key: string, codec: Codec): Option<Json> {
    var text := GetItem(ls, key);
    codec.parse(if Truthy(text) then text.value else "[]")
  }

  /** GET with a store id: the per-store keys, 404 when the name is missing
      or empty. The products are parsed before the name is checked. */
  function ReadStore(ls: Storage, id: string, codec: Codec): Response {
    match ReadProducts(ls, StoreKey(id, "products"), codec)
    case None => FetchFailed
    case Some(products) =>
      var name := GetItem(ls, StoreKey(id, "name"));
      if !Truthy(name) then NotFound
      else Response(200, StoreBody(Some(id), name, GetItem(ls, StoreKey(id, "template")),
                                   products, GetItem(ls, StoreKey(id, "whatsapp"))))
  }

  /** GET without a store id: the four default keys, never 404. */
  function ReadDefault(ls: Storage, codec: Codec): Response {
    match ReadProducts(ls, DefaultProducts, codec)
    case None => FetchFailed
    case Some(products) =>
      Response(200, StoreBody(None, GetItem(ls, DefaultName), GetItem(ls, DefaultTemplate),
                              products, GetItem(ls, DefaultWhatsapp)))
  }

  function Get(ls: Storage, storeId: Option<string>, codec: Codec): Response {
    if Truthy(storeId) then ReadStore(ls, storeId.value, codec) else ReadDefault(ls, codec)
  }

  /** `products || []`. */
  function ProductsOrEmpty(products: Option<Json>): Json {
    if products.Some? && JsonTruthy(products.value) then products.value else JArray([])
  }

  /** `VITE_APP_URL || window.location.origin`. */
  function BaseUrl(env: Env): string {
    if Truthy(env.appUrl) then env.appUrl.value else env.origin
  }

  /** The eight keys a POST writes for the store with this id. */
  function PostKeys(id: string): set<string> {
    {StoreKey(id, "name"), StoreKey(id, "template"), StoreKey(id, "whatsapp"),
     StoreKey(id, "products"), DefaultName, DefaultTemplate, DefaultWhatsapp, DefaultProducts}
  }

  /** POST: a fresh id from the clock, the four per-store keys, then the four default keys. */
  function Post(ls: Storage, body: Option<PostBody>, env: Env, codec: Codec): (o: Outcome)
    ensures body.None? ==> o == Outcome(ls, CreateFailed)
    ensures body.Some? ==> o.response.status == 200 && o.storage.Keys == ls.Keys + PostKeys(NatToString(env.now))
    ensures body.Some? ==> o.response.body.CreatedBody? && o.response.body.newId == NatToString(env.now)
  {
    match body
    case None => Outcome(ls, CreateFailed)
    case Some(b) =>
      var id := NatToString(env.now);
      var products := codec.stringify(ProductsOrEmpty(b.products));
      var written := ls[StoreKey(id, "name") := StoredText(b.name)]
                       [StoreKey(id, "template") := StoredText(b.template)]
                       [StoreKey(id, "whatsapp") := StoredText(b.whatsapp)]
                       [StoreKey(id, "products") := products]
                       [DefaultName := StoredText(b.name)]
                       [DefaultTemplate := StoredText(b.template)]
                       [DefaultWhatsapp := StoredText(b.whatsapp)]
                       [DefaultProducts := products];
      Outcome(written, Response(200, CreatedBody(id, b.name, b.template, b.whatsapp, b.products,
                                                 BaseUrl(env) + "/" + id)))
  }

  /** The whole handler. Only POST writes; any method but GET and POST is refused with 405. */
  function Handler(req: Request, ls: Storage, env: Env, codec: Codec): (o: Outcome)
    ensures req.verb != "POST" ==> o.storage == ls
    ensures req.verb != "GET" && req.verb != "POST" ==> o.response == NotAllowed
    ensures o.response.status == 404 ==> req.verb == "GET" && Truthy(req.storeId)
  {
    if req.verb == "GET" then Outcome(ls, Get(ls, req.storeId, codec))
    else if req.verb == "POST" then Post(ls, req.body, env, codec)
    else Outcome(ls, NotAllowed)
  }

  function GetRequest(storeId: Option<string>): Request {
    Request("GET", storeId, None)
  }

  function PostRequest(body: PostBody): Request {
    Request("POST", None, Some(body))
  }

  /** None of the eight keys a POST writes coincide. */
  lemma PostKeysDistinct(id: string)
    ensures StoreKey(id, "name") != StoreKey(id, "template")
    ensures StoreKey(id, "name") != StoreKey(id, "whatsapp")
    ensures StoreKey(id, "name") != StoreKey(id, "products")
    ensures StoreKey(id, "template") != StoreKey(id, "whatsapp")
    ensures StoreKey(id, "template") != StoreKey(id, "products")
    ensures StoreKey(id, "whatsapp") != StoreKey(id, "products")
    ensures forall f :: StoreKey(id, f) !in {DefaultName, DefaultTemplate, DefaultWhatsapp, DefaultProducts}
  {
    StoreKeyInjective(id, "name", "template");
    StoreKeyInjective(id, "name", "whatsapp");
    StoreKeyInjective(id, "name", "products");
    StoreKeyInjective(id, "template", "whatsapp");
    StoreKeyInjective(id, "template", "products");
    StoreKeyInjective(id, "whatsapp", "products");
    forall f
      ensures StoreKey(id, f) !in {DefaultName, DefaultTemplate, DefaultWhatsapp, DefaultProducts}
    {
      StoreKeyAvoids(id, f, DefaultName);
      StoreKeyAvoids(id, f, DefaultTemplate);
      StoreKeyAvoids(id, f, DefaultWhatsapp);
      StoreKeyAvoids(id, f, DefaultProducts);
    }
  }

  /** GET with an id whose name is absent or empty: 404 once the products parse,
      500 when they do not; storage is untouched either way. */
  lemma GetMissingName(ls: Storage, id: string, env: Env, codec: Codec)
    requires id != ""
    requires !Truthy(GetItem(ls, StoreKey(id, "name")))
    ensures var o := Handler(GetRequest(Some(id)), ls, env, codec);
            o.storage == ls &&
            o.response == (if ReadProducts(ls, StoreKey(id, "products"), codec).Some? then NotFound else FetchFailed)
  {
  }

  /** GET with an id whose name is stored and whose products parse: the id is
      echoed and the stored fields and the parsed products are returned. */
  lemma GetKnownStore(ls: Storage, id: string, products: Json, env: Env, codec: Codec)
    requires id != ""
    requires StoreKey(id, "name") in ls && ls[StoreKey(id, "name")] != ""
    requires ReadProducts(ls, StoreKey(id, "products"), codec) == Some(products)
    ensures Handler(GetRequest(Some(id)), ls, env, codec).response ==
            Response(200, StoreBody(Some(id), Some(ls[StoreKey(id, "name")]),
                                    GetItem(ls, StoreKey(id, "template")), products,
                                    GetItem(ls, StoreKey(id, "whatsapp"))))
  {
  }

  /** A known store without a products key reads back `[]` for its products. */
  lemma GetKnownStoreWithoutProducts(ls: Storage, id: string, env: Env, codec: Codec)
    requires id != ""
    requires StoreKey(id, "name") in ls && ls[StoreKey(id, "name")] != ""
    requires StoreKey(id, "products") !in ls
    requires codec.parse("[]") == Some(JArray([]))
    ensures Handler(GetRequest(Some(id)), ls, env, codec).response ==
            Response(200, StoreBody(Some(id), Some(ls[StoreKey(id, "name")]),
                                    GetItem(ls, StoreKey(id, "template")), JArray([]),
                                    GetItem(ls, StoreKey(id, "whatsapp"))))
  {
    GetKnownStore(ls, id, JArray([]), env, codec);
  }

  /** POST writes exactly the eight keys: the per-store ones for the new id and
      the defaults, each with the posted value, and nothing else changes. Its
      answer echoes the fields and gives the new store's address. */
  lemma PostWrites(ls: Storage, body: PostBody, env: Env, codec: Codec)
    ensures var o := Handler(PostRequest(body), ls, env, codec);
            var id := NatToString(env.now);
            var products := codec.stringify(ProductsOrEmpty(body.products));
            && o.storage.Keys == ls.Keys + PostKeys(id)
            && (forall k :: k in ls && k !in PostKeys(id) ==> o.storage[k] == ls[k])
            && o.storage[StoreKey(id, "name")] == StoredText(body.name)
            && o.storage[StoreKey(id, "template")] == StoredText(body.template)
            && o.storage[StoreKey(id, "whatsapp")] == StoredText(body.whatsapp)
            && o.storage[StoreKey(id, "products")] == products
            && o.storage[DefaultName] == StoredText(body.name)
            && o.storage[DefaultTemplate] == StoredText(body.template)
            && o.storage[DefaultWhatsapp] == StoredText(body.whatsapp)
            && o.storage[DefaultProducts] == products
            && o.response == Response(200, CreatedBody(id, body.name, body.template, body.whatsapp,
                                                       body.products, BaseUrl(env) + "/" + id))
  {
    PostFrame(ls, body, env, codec);
    PostStoreValues(ls, body, env, codec);
    PostDefaultValues(ls, body, env, codec);
  }

  /** POST adds the eight keys and leaves every other key as it was. */
  lemma PostFrame(ls: Storage, body: PostBody, env: Env, codec: Codec)
    ensures var o := Handler(PostRequest(body), ls, env, codec);
            var id := NatToString(env.now);
            && o.storage.Keys == ls.Keys + PostKeys(id)
            && (forall k :: k in ls && k !in PostKeys(id) ==> o.storage[k] == ls[k])
  {
  }

  /** The per-store keys hold the posted values. */
  lemma PostStoreValues(ls: Storage, body: PostBody, env: Env, codec: Codec)
    ensures var o := Handler(PostRequest(body), ls, env, codec);
            var id := NatToString(env.now);
            && o.storage[StoreKey(id, "name")] == StoredText(body.name)
            && o.storage[StoreKey(id, "template")] == StoredText(body.template)
            && o.storage[StoreKey(id, "whatsapp")] == StoredText(body.whatsapp)
            && o.storage[StoreKey(id, "products")] == codec.stringify(ProductsOrEmpty(body.products))
  {
    var id := NatToString(env.now);
    PostKeysDistinct(id);
    var defaults := {DefaultName, DefaultTemplate, DefaultWhatsapp, DefaultProducts};
    assert StoreKey(id, "name") !in defaults && StoreKey(id, "template") !in defaults;
    assert StoreKey(id, "whatsapp") !in defaults && StoreKey(id, "products") !in defaults;
    LayeredRead(ls, StoreKey(id, "name"), StoreKey(id, "template"), StoreKey(id, "whatsapp"),
                StoreKey(id, "products"), DefaultName, DefaultTemplate, DefaultWhatsapp, DefaultProducts,
                StoredText(body.name), StoredText(body.template), StoredText(body.whatsapp),
                codec.stringify(ProductsOrEmpty(body.products)),
                StoredText(body.name), StoredText(body.template), StoredText(body.whatsapp),
                codec.stringify(ProductsOrEmpty(body.products)));
  }

  /** Four distinct keys written under four others keep their values. */
  lemma LayeredRead<K, V>(m: map<K, V>, a1: K, a2: K, a3: K, a4: K, b1: K, b2: K, b3: K, b4: K,
                          x1: V, x2: V, x3: V, x4: V, y1: V, y2: V, y3: V, y4: V)
    requires a1 != a2 && a1 != a3 && a1 != a4 && a2 != a3 && a2 != a4 && a3 != a4
    requires a1 !in {b1, b2, b3, b4} && a2 !in {b1, b2, b3, b4}
    requires a3 !in {b1, b2, b3, b4} && a4 !in {b1, b2, b3, b4}
    ensures var w := m[a1 := x1][a2 := x2][a3 := x3][a4 := x4][b1 := y1][b2 := y2][b3 := y3][b4 := y4];
            w[a1] == x1 && w[a2] == x2 && w[a3] == x3 && w[a4] == x4
  {
  }

  /** The default keys hold the posted values too. */
  lemma PostDefaultValues(ls: Storage, body: PostBody, env: Env, codec: Codec)
    ensures var o := Handler(PostRequest(body), ls, env, codec);
            var products := codec.stringify(ProductsOrEmpty(body.products));
            && o.storage[DefaultName] == StoredText(body.name)
            && o.storage[DefaultTemplate] == StoredText(body.template)
            && o.storage[DefaultWhatsapp] == StoredText(body.whatsapp)
            && o.storage[DefaultProducts] == products
  {
  }

  /** The id a POST answers with is the clock reading in decimal, so two POSTs
      at different instants name different stores. */
  lemma PostIdsDiffer(ls1: Storage, ls2: Storage, body1: PostBody, body2: PostBody,
                      env1: Env, env2: Env, codec: Codec)
    requires env1.now != env2.now
    ensures var r1 := Handler(PostRequest(body1), ls1, env1, codec).response;
            var r2 := Handler(PostRequest(body2), ls2, env2, codec).response;
            r1.body.CreatedBody? && r2.body.CreatedBody? && r1.body.newId != r2.body.newId
  {
    NatToStringInjective(env1.now, env2.now);
  }

  /** A GET for the id a POST returned reads back what was posted, provided
      the name is non-empty and the products survive `JSON` round trip. */
  lemma PostThenGet(ls: Storage, body: PostBody, env: Env, codec: Codec)
    requires Truthy(body.name)
    requires var p := ProductsOrEmpty(body.products);
             codec.stringify(p) != "" && codec.parse(codec.stringify(p)) == Some(p)
    ensures var id := NatToString(env.now);
            var o := Handler(PostRequest(body), ls, env, codec);
            Handler(GetRequest(Some(id)), o.storage, env, codec) ==
            Outcome(o.storage, Response(200, StoreBody(Some(id), body.name, Some(StoredText(body.template)),
                                                       ProductsOrEmpty(body.products),
                                                       Some(StoredText(body.whatsapp)))))
  {
    PostWrites(ls, body, env, codec);
  }

  /** A GET without an id (or with an empty one) reads back the most recent POST
      from the default keys, whatever its name. */
  lemma PostThenGetDefault(ls: Storage, body: PostBody, storeId: Option<string>, env: Env, codec: Codec)
    requires !Truthy(storeId)
    requires var p := ProductsOrEmpty(body.products);
             codec.stringify(p) != "" && codec.parse(codec.stringify(p)) == Some(p)
    ensures var o := Handler(PostRequest(body), ls, env, codec);
            Handler(GetRequest(storeId), o.storage, env, codec).response ==
            Response(200, StoreBody(None, Some(StoredText(body.name)), Some(StoredText(body.template)),
                                    ProductsOrEmpty(body.products), Some(StoredText(body.whatsapp))))
  {
    PostWrites(ls, body, env, codec);
  }

  /** A POST without a body fails with 500 and writes nothing. */
  lemma PostWithoutBody(ls: Storage, env: Env, codec: Codec)
    ensures Handler(Request("POST", None, None), ls, env, codec) == Outcome(ls, CreateFailed)
  {
  }

  /** Every method other than GET and POST gets 405 and leaves storage alone. */
  lemma OtherMethod(req: Request, ls: Storage, env: Env, codec: Codec)
    requires req.verb != "GET" && req.verb != "POST"
    ensures Handler(req, ls, env, codec) == Outcome(ls, NotAllowed)
  {
  }
}

=== FILE: local_storage.dfy ===
/** The browser's `localStorage` as an immutable string-to-string map. */
module LocalStorage {
  import opened Basics

  type Storage = map<string, string>

  /** `localStorage.getItem(key)`: `null` (here `None`) when the key is absent. */
  function GetItem(ls: Storage, key: string): Option<string> {
    if key in ls then Some(ls[key]) else None
  }

  /** The text `setItem` and template literals make of a value that may be
      `undefined`. */
  function StoredText(v: Option<string>): string {
    v.GetOr("undefined")
  }

  /** The key `store_<id>_<field>` under which one store's field lives. */
  function StoreKey(id: string, field: string): string {
    "store_" + id + "_" + field
  }

  /** Within one store, different fields live under different keys. */
  lemma StoreKeyInjective(id: string, f: string, g: string)
    ensures StoreKey(id, f) == StoreKey(id, g) ==> f == g
  {
    if StoreKey(id, f) == StoreKey(id, g) {
      var n := |"store_" + id + "_"|;
      assert StoreKey(id, f)[n..] == f;
      assert StoreKey(id, g)[n..] == g;
    }
  }

  /** A per-store key has `_` right after "store", so it never equals a key
      whose sixth character is something else. */
  lemma StoreKeyAvoids(id: string, field: string, other: string)
    requires |other| > 5 && other[5] != '_'
    ensures StoreKey(id, field) != other
  {
    assert StoreKey(id, field)[5] == '_';
  }
}

=== FILE: order.dfy ===
/** The WhatsApp order hand-off shared by the cart sheet and the checkout
    form: line layout, message template, amounts to two decimals, deep link. */
module Order {
  import opened Basics
  import opened Text

  /** A cart line: the product's id, name and unit price in cents, and how many. */
  datatype CartItem = CartItem(id: string, name: string, priceCents: nat, quantity: nat)

  /** What a click handler asks the browser to do, in order. */
  datatype Effect =
    | PreventDefault
    | Alert(text: string)
    | OpenWindow(url: string, target: string)
    | SetSheetOpen(open: bool)
    | CloseForm

  /** `amount.toFixed(2)` for a non-negative amount given in cents. */
  function Money(cents: nat): (r: string)
    ensures |r| >= 4 && r[|r| - 3] == '.' && AllDigits(r[..|r| - 3]) && AllDigits(r[|r| - 2..])
    ensures '\n' !in r
  {
    var whole := NatToString(cents / 100);
    var frac := [DigitChar(cents % 100 / 10), DigitChar(cents % 10)];
    MoneyPieces(whole, frac);
    TwoDigits(cents % 100 / 10, cents % 10);
    whole + "." + frac
  }

  /** The number of cents a `d.dd` amount text denotes, if it has that shape. */
  function MoneyValue(s: string): Option<nat> {
    if |s| >= 4 && s[|s| - 3] == '.' && AllDigits(s[..|s| - 3]) && AllDigits(s[|s| - 2..])
    then Some(100 * DigitsValue(s[..|s| - 3]) + DigitsValue(s[|s| - 2..]))
    else None
  }

  /** Two digit characters read back as the two-digit number. */
  lemma TwoDigits(x: nat, y: nat)
    requires x < 10 && y < 10
    ensures AllDigits([DigitChar(x), DigitChar(y)])
    ensures DigitsValue([DigitChar(x), DigitChar(y)]) == 10 * x + y
  {
    var f := [DigitChar(x), DigitChar(y)];
    assert f[..1] == [DigitChar(x)];
    assert f[..1][..0] == [];
    assert DigitsValue(f[..1]) == x;
  }

  /** The parts of a rendered amount sit where `MoneyValue` looks for them. */
  lemma MoneyPieces(whole: string, frac: string)
    requires |whole| >= 1 && |frac| == 2
    ensures var m := whole + "." + frac;
            |m| >= 4 && m[|m| - 3] == '.' && m[..|m| - 3] == whole && m[|m| - 2..] == frac
  {
  }

  /** Reading an amount back gives the cents it was rendered from. */
  lemma MoneyRoundTrip(cents: nat)
    ensures MoneyValue(Money(cents)) == Some(cents)
  {
    var whole := NatToString(cents / 100);
    var frac := [DigitChar(cents % 100 / 10), DigitChar(cents % 10)];
    MoneyPieces(whole, frac);
    DigitsValueOfNatToString(cents / 100);
    TwoDigits(cents % 100 / 10, cents % 10);
  }

  /** Like `toFixed(2)`, an amount has no leading zero before a second integer
      digit: with `MoneyRoundTrip`, the text of an amount is fixed. */
  lemma MoneyNoLeadingZero(cents: nat)
    ensures |Money(cents)| > 4 ==> Money(cents)[0] != '0'
  {
    var whole := NatToString(cents / 100);
    assert Money(cents)[..|whole|] == whole;
  }

  /** `price * quantity` for a cart line, in cents. */
  function LineTotal(item: CartItem): nat {
    item.priceCents * item.quantity
  }

  /** `<name> x<quantity> - $<price * quantity to two decimals>`. */
  function LineText(item: CartItem): (r: string)
    ensures |item.name| + 2 <= |r| && r[..|item.name| + 2] == item.name + " x"
    ensures '\n' !in item.name ==> '\n' !in r
  {
    var count := NatToString(item.quantity);
    var amount := Money(LineTotal(item));
    NoNewlineInNumbers(item.quantity);
    LinePieces(item.name, count, amount);
    assert (item.name + " x" + count + " - $" + amount)[..|item.name| + 2] == item.name + " x";
    item.name + " x" + count + " - $" + amount
  }

  /** `r` is laid out as `<name> x<count> - $<amount>`. */
  predicate LineLayout(r: string, name: string, count: string, amount: string) {
    var n := |name| + 2;
    && |r| == n + |count| + 4 + |amount|
    && r[..n] == name + " x"
    && r[n..n + |count|] == count
    && r[n + |count|..n + |count| + 4] == " - $"
    && r[|r| - |amount|..] == amount
  }

  /** An order line reads back as the item: its name, ` x`, the quantity in
      decimal, ` - $`, and the line total to two decimals. */
  lemma LineTextReadBack(item: CartItem)
    ensures LineLayout(LineText(item), item.name, NatToString(item.quantity), Money(LineTotal(item)))
    ensures DigitsValue(NatToString(item.quantity)) == item.quantity
    ensures MoneyValue(Money(LineTotal(item))) == Some(LineTotal(item))
  {
    var count := NatToString(item.quantity);
    var m := Money(LineTotal(item));
    assert LineText(item) == item.name + " x" + count + " - $" + m;
    LayoutOf(item.name, count, m);
    DigitsValueOfNatToString(item.quantity);
    MoneyRoundTrip(LineTotal(item));
  }

  lemma LayoutOf(name: string, count: string, amount: string)
    ensures LineLayout(name + " x" + count + " - $" + amount, name, count, amount)
  {
    Pieces4(name + " x", count, " - $", amount);
    assert |name + " x"| == |name| + 2 && |" - $"| == 4;
  }

  /** Where the four parts of `a + b + c + d` sit. */
  lemma Pieces4(a: string, b: string, c: string, d: string)
    ensures var s := a + b + c + d;
            && s[..|a|] == a && s[|a|..|a| + |b|] == b
            && s[|a| + |b|..|a| + |b| + |c|] == c && s[|s| - |d|..] == d
  {
    var s := a + b + c + d;
    assert s == a + (b + (c + d));
  }

  /** One line per cart item, in cart order. */
  function Lines(items: seq<CartItem>): (ls: seq<string>)
    ensures |ls| == |items|
    ensures forall i :: 0 <= i < |items| ==> ls[i] == LineText(items[i])
  {
    seq(|items|, i requires 0 <= i < |items| => LineText(items[i]))
  }

  /** The message's fixed layout around the item lines. */
  function Message(customer: string, phone: string, items: seq<CartItem>, totalCents: nat): (r: string)
    ensures var head := "New Order!\n\nCustomer: " + customer + "\nPhone: " + phone + "\n\nOrder Details:\n";
            |head| <= |r| && r[..|head|] == head
    ensures var tail := "\n\nTotal: $" + Money(totalCents);
            |tail| <= |r| && r[|r| - |tail|..] == tail
  {
    var head := Head(customer, phone);
    var tail := "\n\nTotal: $" + Money(totalCents);
    var lines := Join(Lines(items), '\n');
    assert Body(items, totalCents) == lines + tail;
    assert (head + (lines + tail))[..|head|] == head;
    assert (head + (lines + tail))[|head + (lines + tail)| - |tail|..] == tail;
    head + Body(items, totalCents)
  }

  /** The message from the item lines on: the lines joined by `\n`, a blank
      line, and the total. */
  function Body(items: seq<CartItem>, totalCents: nat): string {
    Join(Lines(items), '\n') + "\n\nTotal: $" + Money(totalCents)
  }

  /** `https://wa.me/<number>?text=<encoded message>`; `encode` is `encodeURIComponent`. */
  function Link(number: string, message: string, encode: string -> string): (r: string)
    ensures var prefix := "https://wa.me/" + number + "?text=";
            |prefix| <= |r| && r[..|prefix|] == prefix && r[|prefix|..] == encode(message)
  {
    var prefix := "https://wa.me/" + number + "?text=";
    assert (prefix + encode(message))[|prefix|..] == encode(message);
    prefix + encode(message)
  }

  /** A character that occurs in no rendered amount or count. */
  lemma NoNewlineInNumbers(n: nat)
    ensures '\n' !in NatToString(n)
    ensures '\n' !in Money(n)
  {
  }

  /** The line is a single line when its name, count and amount are. */
  lemma LinePieces(name: string, count: string, amount: string)
    requires '\n' !in count && '\n' !in amount
    ensures '\n' !in name ==> '\n' !in name + " x" + count + " - $" + amount
  {
    if '\n' !in name {
      NoNewlineConcat(name, " x");
      NoNewlineConcat(name + " x", count);
      NoNewlineConcat(name + " x" + count, " - $");
      NoNewlineConcat(name + " x" + count + " - $", amount);
    }
  }

  lemma NoNewlineConcat(a: string, b: string)
    requires '\n' !in a && '\n' !in b
    ensures '\n' !in a + b
  {
  }

  /** Splitting right after a separator-free piece gives that piece first. */
  lemma SplitLine(a: string, rest: string, sep: char)
    requires sep !in a
    ensures Split(a + [sep] + rest, sep) == [a] + Split(rest, sep)
  {
    var x := [sep] + rest;
    assert a + [sep] + rest == a + x;
    assert Split(x, sep) == [""] + Split(rest, sep) by {
      assert x[0] == sep && x[1..] == rest;
    }
    SplitPrefix(a, x, sep);
    assert a + "" == a;
  }

  /** Splitting a joined list followed by more text gives the list, then the rest's pieces. */
  lemma {:induction false} SplitJoinThen(parts: seq<string>, sep: char, rest: string)
    requires |parts| >= 1
    requires forall i :: 0 <= i < |parts| ==> sep !in parts[i]
    ensures Split(Join(parts, sep) + [sep] + rest, sep) == parts + Split(rest, sep)
    decreases |parts|
  {
    if |parts| == 1 {
      SplitLine(parts[0], rest, sep);
    } else {
      var tail := Join(parts[1..], sep);
      var after := tail + [sep] + rest;
      assert Split(after, sep) == parts[1..] + Split(rest, sep) by {
        SplitJoinThen(parts[1..], sep, rest);
      }
      assert Join(parts, sep) + [sep] + rest == parts[0] + [sep] + after by {
        Regroup(parts[0], sep, tail, rest);
      }
      assert Split(parts[0] + [sep] + after, sep) == [parts[0]] + Split(after, sep) by {
        SplitLine(parts[0], after, sep);
      }
      assert parts == [parts[0]] + parts[1..];
    }
  }

  lemma Regroup(a: string, sep: char, t: string, rest: string)
    ensures a + [sep] + t + [sep] + rest == a + [sep] + (t + [sep] + rest)
  {
  }

  /** The fixed head of the message, up to and including "Order Details:\n". */
  function Head(customer: string, phone: string): string {
    "New Order!\n\nCustomer: " + customer + "\nPhone: " + phone + "\n\nOrder Details:\n"
  }

  /** The head of the message, taken apart at its line breaks. */
  lemma HeadPieces(customer: string, phone: string, body: string)
    ensures Head(customer, phone) + body ==
            "New Order!" + "\n" + ("" + "\n" + ("Customer: " + customer + "\n" + ("Phone: " + phone + "\n"
            + ("" + "\n" + ("Order Details:" + "\n" + body)))))
  {
    HeadLiterals();
  }

  lemma HeadLiterals()
    ensures "New Order!\n\nCustomer: " == "New Order!" + "\n" + "" + "\n" + "Customer: "
    ensures "\nPhone: " == "\n" + "Phone: "
    ensures "\n\nOrder Details:\n" == "\n" + "" + "\n" + "Order Details:" + "\n"
  {
  }

  /** Two single lines, each followed by a line break, split back into those lines. */
  lemma SplitTwoLines(a: string, b: string, rest: string)
    requires '\n' !in a && '\n' !in b
    ensures Split(a + "\n" + (b + "\n" + rest), '\n') == [a, b] + Split(rest, '\n')
  {
    SplitLine(b, rest, '\n');
    SplitLine(a, b + "\n" + rest, '\n');
  }

  /** Six single lines, each followed by a line break, split back into those lines. */
  lemma SplitSixLines(l0: string, l1: string, l2: string, l3: string, l4: string, l5: string, body: string)
    requires '\n' !in l0 && '\n' !in l1 && '\n' !in l2 && '\n' !in l3 && '\n' !in l4 && '\n' !in l5
    ensures Split(l0 + "\n" + (l1 + "\n" + (l2 + "\n" + (l3 + "\n" + (l4 + "\n" + (l5 + "\n" + body))))), '\n') ==
            [l0, l1, l2, l3, l4, l5] + Split(body, '\n')
  {
    var rest := Split(body, '\n');
    var h4 := l4 + "\n" + (l5 + "\n" + body);
    SplitTwoLines(l4, l5, body);
    var h2 := l2 + "\n" + (l3 + "\n" + h4);
    SplitTwoLines(l2, l3, h4);
    SplitTwoLines(l0, l1, h2);
    assert [l0, l1] + ([l2, l3] + ([l4, l5] + rest)) == [l0, l1, l2, l3, l4, l5] + rest;
  }

  /** The head splits into its six lines, whatever follows. */
  lemma SplitHead(customer: string, phone: string, body: string)
    requires '\n' !in customer && '\n' !in phone
    ensures Split(Head(customer, phone) + body, '\n') ==
            ["New Order!", "", "Customer: " + customer, "Phone: " + phone, "", "Order Details:"]
            + Split(body, '\n')
  {
    assert '\n' !in "Customer: " + customer;
    assert '\n' !in "Phone: " + phone;
    SplitSixLines("New Order!", "", "Customer: " + customer, "Phone: " + phone, "", "Order Details:", body);
    HeadPieces(customer, phone, body);
  }

  /** The total line is a single line. */
  lemma TotalLineSingle(totalCents: nat)
    ensures '\n' !in "Total: $" + Money(totalCents)
  {
    NoNewlineInNumbers(totalCents);
  }

  /** A line break followed by a single line splits into an empty line and that line. */
  lemma SplitTail(t: string)
    requires '\n' !in t
    ensures Split("\n" + t, '\n') == ["", t]
  {
    SplitPrefix(t, "", '\n');
    assert t + "" == t;
    SplitLine("", t, '\n');
    assert "" + "\n" + t == "\n" + t;
  }

  lemma BodyShape(details: string, amount: string)
    ensures details + "\n\nTotal: $" + amount == details + "\n" + ("\n" + ("Total: $" + amount))
  {
    assert "\n\nTotal: $" == "\n" + "\n" + "Total: $";
  }

  /** Every item line is a single line when every item name is. */
  lemma LinesSingle(items: seq<CartItem>)
    requires forall i :: 0 <= i < |items| ==> '\n' !in items[i].name
    ensures forall i :: 0 <= i < |Lines(items)| ==> '\n' !in Lines(items)[i]
  {
    forall i | 0 <= i < |items|
      ensures '\n' !in Lines(items)[i]
    {
    }
  }

  /** The item lines, an empty line and the total line. */
  lemma SplitBody(items: seq<CartItem>, totalCents: nat)
    requires forall i :: 0 <= i < |items| ==> '\n' !in items[i].name
    ensures Split(Body(items, totalCents), '\n') ==
            (if |items| == 0 then [""] else Lines(items)) + ["", "Total: $" + Money(totalCents)]
  {
    var total := "Total: $" + Money(totalCents);
    var tailText := "\n" + total;
    TotalLineSingle(totalCents);
    SplitTail(total);
    var details := Join(Lines(items), '\n');
    BodyShape(details, Money(totalCents));
    if |items| == 0 {
      assert details == "";
      SplitLine("", tailText, '\n');
    } else {
      LinesSingle(items);
      SplitJoinThen(Lines(items), '\n', tailText);
    }
  }

  /** The message, read line by line: the fixed header, the customer and the
      phone, one line per item in cart order (a single empty line for an empty
      cart), and the total. This holds whenever the customer's name, phone and
      item names are single lines. */
  lemma MessageLines(customer: string, phone: string, items: seq<CartItem>, totalCents: nat)
    requires '\n' !in customer && '\n' !in phone
    requires forall i :: 0 <= i < |items| ==> '\n' !in items[i].name
    ensures Split(Message(customer, phone, items, totalCents), '\n') ==
            ["New Order!", "", "Customer: " + customer, "Phone: " + phone, "", "Order Details:"]
            + (if |items| == 0 then [""] else Lines(items))
            + ["", "Total: $" + Money(totalCents)]
  {
    SplitHead(customer, phone, Body(items, totalCents));
    SplitBody(items, totalCents);
  }
}

=== FILE: store_actions.dfy ===
/** The store owner's actions against the hosted tables: creating a store
    with its products and spreadsheet connection, and deploying it. Each
    table call's answer is supplied, so the model is a pure function of the
    tables and those answers. */
module StoreActions {
  import opened Basics

  /** A product object as the setup wizard hands it over: field name to value. */
  type Record = map<string, string>

  const StoreIdField := "store_id"

  /** `{ ...product, store_id: storeId }`. */
  function Tag(p: Record, storeId: string): Record {
    p[StoreIdField := storeId]
  }

  function TagAll(ps: seq<Record>, storeId: string): (ts: seq<Record>)
    ensures |ts| == |ps|
    ensures forall i :: 0 <= i < |ps| ==> ts[i] == Tag(ps[i], storeId)
  {
    seq(|ps|, i requires 0 <= i < |ps| => Tag(ps[i], storeId))
  }

  /** The row the store insert sends. */
  datatype NewStore = NewStore(name: string, template: string, whatsapp: string, status: string)

  /** A row of the `stores` table. */
  datatype StoreRow = StoreRow(id: string, name: string, template: string, whatsapp: string, status: string)

  /** A row of the `spreadsheet_connections` table. */
  datatype Connection = Connection(
    storeId: string, spreadsheetUrl: string, spreadsheetType: string, whatsapp: string, template: string)

  /** The three tables, each in insertion order. */
  datatype Db = Db(stores: seq<StoreRow>, products: seq<Record>, connections: seq<Connection>)

  /** The table calls, in the order they are issued. */
  datatype Request =
    | InsertStore(store: NewStore)
    | InsertProducts(batch: seq<Record>)
    | InsertConnection(connection: Connection)
    | SelectStore(id: string)
    | UpdateStatus(id: string)

  datatype Toast = Toast(title: string, description: string, destructive: bool)

  /** The store insert's answer: the new row's id, or the error's message. */
  datatype StoreReply = Created(id: string) | CreateFailed(message: string)

  /** The answers of the setup's table calls: the store insert, the k-th product
      batch (0-based; `Some` carries an error message), the connection insert. */
  datatype SetupReplies = SetupReplies(
    store: StoreReply,
    batchError: nat -> Option<string>,
    connectionError: Option<string>)

  /** The tables afterwards, the calls issued, the toasts shown, where the page
      navigates, and the `isProcessing` flag. */
  datatype Setup = Setup(
    db: Db, requests: seq<Request>, toasts: seq<Toast>, redirect: Option<string>, isProcessing: bool)

  const BatchSize := 10

  /** Concatenation of a list of batches. */
  function Flatten<T>(cs: seq<seq<T>>): seq<T>
    decreases |cs|
  {
    if |cs| == 0 then [] else cs[0] + Flatten(cs[1..])
  }

  /** Consecutive slices of at most `n` items: `s.slice(i, i + n)` for
      `i = 0, n, 2n, ...` while `i < |s|`. */
  function Chunks<T>(s: seq<T>, n: nat): (cs: seq<seq<T>>)
    requires n > 0
    ensures Flatten(cs) == s
    ensures forall k :: 0 <= k < |cs| ==> 0 < |cs[k]| <= n
    ensures forall k :: 0 <= k < |cs| - 1 ==> |cs[k]| == n
    decreases |s|
  {
    if |s| == 0 then []
    else if |s| <= n then
      assert Flatten([s]) == s + Flatten([s][1..]);
      [s]
    else
      var rest := Chunks(s[n..], n);
      assert ([s[..n]] + rest)[1..] == rest;
      assert s[..n] + s[n..] == s;
      [s[..n]] + rest
  }

  function Min(a: int, b: int): int {
    if a <= b then a else b
  }

  lemma SliceOfSlice<T>(s: seq<T>, n: nat, a: nat, b: nat)
    requires n <= |s| && a <= b <= |s| - n
    ensures s[n..][a..b] == s[a + n..b + n]
  {
  }

  /** Batch `k` is exactly the slice the loop takes at offset `k * 10`. */
  lemma {:induction false} ChunkIsSlice<T>(s: seq<T>, k: nat)
    requires k < |Chunks(s, BatchSize)|
    ensures k * BatchSize < |s|
    ensures Chunks(s, BatchSize)[k] == s[k * BatchSize..Min(k * BatchSize + BatchSize, |s|)]
    decreases |s|
  {
    if |s| > BatchSize && k > 0 {
      var rest := Chunks(s[BatchSize..], BatchSize);
      assert Chunks(s, BatchSize)[k] == rest[k - 1];
      ChunkIsSlice(s[BatchSize..], k - 1);
      var lo := (k - 1) * BatchSize;
      var hi := Min(lo + BatchSize, |s| - BatchSize);
      SliceOfSlice(s, BatchSize, lo, hi);
    }
  }

  /** `WriteBatches` issues one product insert per batch, in order. */
  function BatchRequests(batches: seq<seq<Record>>): (rs: seq<Request>)
    ensures |rs| == |batches|
    ensures forall k :: 0 <= k < |batches| ==> rs[k] == InsertProducts(batches[k])
  {
    seq(|batches|, k requires 0 <= k < |batches| => InsertProducts(batches[k]))
  }

  function BatchWarning(message: string): Toast {
    Toast("Warning", "Some products may not have been saved: " + message, true)
  }

  /** The batches whose insert succeeds, in order: batch `k` of `batches` is
      call number `first + k`. */
  function Kept(batches: seq<seq<Record>>, first: nat, batchError: nat -> Option<string>): (ks: seq<seq<Record>>)
    ensures |ks| <= |batches|
    ensures forall c :: c in ks ==> c in batches
    decreases |batches|
  {
    if |batches| == 0 then []
    else (if batchError(first).None? then [batches[0]] else [])
         + Kept(batches[1..], first + 1, batchError)
  }

  /** One warning per failed batch, carrying that batch's error, in order. */
  function Warnings(batches: seq<seq<Record>>, first: nat, batchError: nat -> Option<string>): (ws: seq<Toast>)
    ensures |ws| <= |batches|
    decreases |batches|
  {
    if |batches| == 0 then []
    else (if batchError(first).Some? then [BatchWarning(batchError(first).value)] else [])
         + Warnings(batches[1..], first + 1, batchError)
  }

  /** Every batch is either written or warned about, never both. */
  lemma {:induction false} KeptOrWarned(batches: seq<seq<Record>>, first: nat, batchError: nat -> Option<string>)
    ensures |Kept(batches, first, batchError)| + |Warnings(batches, first, batchError)| == |batches|
    decreases |batches|
  {
    if |batches| > 0 {
      KeptOrWarned(batches[1..], first + 1, batchError);
    }
  }

  lemma FlattenCons<T>(c: seq<T>, cs: seq<seq<T>>)
    ensures Flatten([c] + cs) == c + Flatten(cs)
  {
    assert ([c] + cs)[1..] == cs;
  }

  /** Inserts each batch in turn, best effort: a failed batch adds nothing and
      one warning; the later batches are still written. `first` is the index
      of `batches[0]` among all batches. */
  function WriteBatches(products: seq<Record>, batches: seq<seq<Record>>, first: nat,
                        batchError: nat -> Option<string>): (r: (seq<Record>, seq<Toast>))
    ensures |products| <= |r.0| && r.0[..|products|] == products
    ensures forall x :: x in r.0[|products|..] ==> x in Flatten(batches)
    ensures (forall k :: first <= k < first + |batches| ==> batchError(k).None?) ==>
              r.0 == products + Flatten(batches) && r.1 == []
    ensures r == (products + Flatten(Kept(batches, first, batchError)), Warnings(batches, first, batchError))
    decreases |batches|
  {
    KeptWithin(batches, first, batchError);
    KeptAll(batches, first, batchError);
    if |batches| == 0 then (products, [])
    else
      match batchError(first)
      case Some(message) =>
        var rest := WriteBatches(products, batches[1..], first + 1, batchError);
        FailedStep(products, batches, first, batchError, rest);
        (rest.0, [BatchWarning(message)] + rest.1)
      case None =>
        var rest := WriteBatches(products + batches[0], batches[1..], first + 1, batchError);
        KeptStep(products, batches, first, batchError, rest);
        rest
  }

  /** One step of `WriteBatches` when the first batch fails. */
  lemma FailedStep(products: seq<Record>, batches: seq<seq<Record>>, first: nat,
                   batchError: nat -> Option<string>, rest: (seq<Record>, seq<Toast>))
    requires |batches| > 0 && batchError(first).Some?
    requires rest == (products + Flatten(Kept(batches[1..], first + 1, batchError)),
                      Warnings(batches[1..], first + 1, batchError))
    ensures (rest.0, [BatchWarning(batchError(first).value)] + rest.1) ==
            (products + Flatten(Kept(batches, first, batchError)), Warnings(batches, first, batchError))
  {
    assert Kept(batches, first, batchError) == Kept(batches[1..], first + 1, batchError);
  }

  /** One step of `WriteBatches` when the first batch is written. */
  lemma KeptStep(products: seq<Record>, batches: seq<seq<Record>>, first: nat,
                 batchError: nat -> Option<string>, rest: (seq<Record>, seq<Toast>))
    requires |batches| > 0 && batchError(first).None?
    requires rest == ((products + batches[0]) + Flatten(Kept(batches[1..], first + 1, batchError)),
                      Warnings(batches[1..], first + 1, batchError))
    ensures rest == (products + Flatten(Kept(batches, first, batchError)), Warnings(batches, first, batchError))
  {
    var later := Kept(batches[1..], first + 1, batchError);
    assert Kept(batches, first, batchError) == [batches[0]] + later;
    assert Warnings(batches, first, batchError) == rest.1;
    FlattenCons(batches[0], later);
    assert (products + batches[0]) + Flatten(later) == products + (batches[0] + Flatten(later));
    assert rest.0 == products + Flatten(Kept(batches, first, batchError));
  }

  /** What the kept batches hold comes from the batches. */
  lemma {:induction false} KeptWithin(batches: seq<seq<Record>>, first: nat, batchError: nat -> Option<string>)
    ensures forall x :: x in Flatten(Kept(batches, first, batchError)) ==> x in Flatten(batches)
    decreases |batches|
  {
    if |batches| > 0 {
      var later := Kept(batches[1..], first + 1, batchError);
      KeptWithin(batches[1..], first + 1, batchError);
      assert Flatten(batches) == batches[0] + Flatten(batches[1..]);
      if batchError(first).None? {
        assert Kept(batches, first, batchError) == [batches[0]] + later;
        FlattenCons(batches[0], later);
      } else {
        assert Kept(batches, first, batchError) == later;
        assert forall x :: x in Flatten(batches[1..]) ==> x in Flatten(batches);
      }
    }
  }

  /** With no failing call every batch is kept and nothing is warned about. */
  lemma {:induction false} KeptAll(batches: seq<seq<Record>>, first: nat, batchError: nat -> Option<string>)
    ensures (forall k :: first <= k < first + |batches| ==> batchError(k).None?) ==>
              Kept(batches, first, batchError) == batches && Warnings(batches, first, batchError) == []
    decreases |batches|
  {
    if |batches| > 0 && forall k :: first <= k < first + |batches| ==> batchError(k).None? {
      KeptAll(batches[1..], first + 1, batchError);
      assert [batches[0]] + batches[1..] == batches;
    }
  }

  /** The batches a setup writes for these products and this store id. */
  function SetupBatches(initialProducts: seq<Record>, storeId: string): seq<seq<Record>> {
    if |initialProducts| > 0 then Chunks(TagAll(initialProducts, storeId), BatchSize) else []
  }

  const ConnectionWarning := Toast("Warning", "Spreadsheet connection details may not have been saved", true)

  /** `handleSetupComplete`. */
  function SetupComplete(db: Db, sheetUrl: string, template: string, whatsapp: string, storeName: string,
                         initialProducts: seq<Record>, replies: SetupReplies): (r: Setup)
    ensures |r.requests| >= 1 && r.requests[0] == InsertStore(NewStore(storeName, template, whatsapp, "preview"))
    ensures replies.store.CreateFailed? ==>
              && r.db == db && |r.requests| == 1 && r.redirect.None? && !r.isProcessing
              && r.toasts == [Toast("Error", "Store creation failed: " + replies.store.message, true)]
    ensures replies.store.Created? ==>
              var id := replies.store.id;
              && r.redirect == Some("/" + id)
              && r.isProcessing
              && r.db.stores == db.stores + [StoreRow(id, storeName, template, whatsapp, "preview")]
              && r.requests[|r.requests| - 1] ==
                   InsertConnection(Connection(id, sheetUrl, "google", whatsapp, template))
              && |db.products| <= |r.db.products| && r.db.products[..|db.products|] == db.products
    ensures replies.store.Created? ==>
              var id := replies.store.id;
              var batches := SetupBatches(initialProducts, id);
              var connection := Connection(id, sheetUrl, "google", whatsapp, template);
              && r.db.products == db.products + Flatten(Kept(batches, 0, replies.batchError))
              && r.db.connections == (if replies.connectionError.None? then db.connections + [connection]
                                      else db.connections)
              && r.toasts == Warnings(batches, 0, replies.batchError)
                             + (if replies.connectionError.None? then [] else [ConnectionWarning])
  {
    var newStore := NewStore(storeName, template, whatsapp, "preview");
    match replies.store
    case CreateFailed(message) =>
      Setup(db, [InsertStore(newStore)], [Toast("Error", "Store creation failed: " + message, true)], None, false)
    case Created(id) =>
      var batches := SetupBatches(initialProducts, id);
      var written := WriteBatches(db.products, batches, 0, replies.batchError);
      var connection := Connection(id, sheetUrl, "google", whatsapp, template);
      var requests := [InsertStore(newStore)] + BatchRequests(batches) + [InsertConnection(connection)];
      var stores := db.stores + [StoreRow(id, storeName, template, whatsapp, "preview")];
      if replies.connectionError.None? then
        Setup(Db(stores, written.0, db.connections + [connection]), requests, written.1, Some("/" + id), true)
      else
        Setup(Db(stores, written.0, db.connections), requests, written.1 + [ConnectionWarning], Some("/" + id), true)
  }

  /** Tagging sets `store_id` and keeps every other field as it was. */
  lemma TagKeepsFields(p: Record, storeId: string)
    ensures Tag(p, storeId).Keys == p.Keys + {StoreIdField}
    ensures Tag(p, storeId)[StoreIdField] == storeId
    ensures forall k :: k in p && k != StoreIdField ==> Tag(p, storeId)[k] == p[k]
  {
  }

  /** After a created store, the product inserts are the middle requests: each
      batch holds 1 to 10 products, and the batches, concatenated in order, are
      exactly the initial products tagged with the new id, so none is dropped
      or duplicated. The batch and connection answers change none of this. */
  lemma SetupRequestsAreBatches(db: Db, sheetUrl: string, template: string, whatsapp: string, storeName: string,
                                initialProducts: seq<Record>, replies: SetupReplies)
    requires replies.store.Created?
    ensures var r := SetupComplete(db, sheetUrl, template, whatsapp, storeName, initialProducts, replies);
            var batches := SetupBatches(initialProducts, replies.store.id);
            && r.requests == [InsertStore(NewStore(storeName, template, whatsapp, "preview"))]
                             + BatchRequests(batches)
                             + [InsertConnection(Connection(replies.store.id, sheetUrl, "google", whatsapp, template))]
            && Flatten(batches) == TagAll(initialProducts, replies.store.id)
            && (forall k :: 0 <= k < |batches| ==> 0 < |batches[k]| <= BatchSize)
  {
  }

  /** Which batch or connection inserts fail changes neither the calls issued
      nor the redirect: a failed batch does not stop the later ones. */
  lemma FailuresDoNotStopSetup(db: Db, sheetUrl: string, template: string, whatsapp: string, storeName: string,
                               initialProducts: seq<Record>, replies1: SetupReplies, replies2: SetupReplies)
    requires replies1.store == replies2.store
    ensures var r1 := SetupComplete(db, sheetUrl, template, whatsapp, storeName, initialProducts, replies1);
            var r2 := SetupComplete(db, sheetUrl, template, whatsapp, storeName, initialProducts, replies2);
            r1.requests == r2.requests && r1.redirect == r2.redirect && r1.isProcessing == r2.isProcessing
  {
  }

  /** Every product a setup writes carries the new store's id and otherwise
      equals one of the initial products. */
  lemma {:induction false} WrittenProductsTagged(db: Db, sheetUrl: string, template: string, whatsapp: string,
                                storeName: string, initialProducts: seq<Record>, replies: SetupReplies)
    requires replies.store.Created?
    ensures var r := SetupComplete(db, sheetUrl, template, whatsapp, storeName, initialProducts, replies);
            forall x :: x in r.db.products[|db.products|..] ==>
              x[StoreIdField] == replies.store.id &&
              exists i :: 0 <= i < |initialProducts| && x == Tag(initialProducts[i], replies.store.id)
  {
    var id := replies.store.id;
    var r := SetupComplete(db, sheetUrl, template, whatsapp, storeName, initialProducts, replies);
    var batches := SetupBatches(initialProducts, id);
    var written := WriteBatches(db.products, batches, 0, replies.batchError);
    assert r.db.products == written.0;
    forall x | x in r.db.products[|db.products|..]
      ensures x[StoreIdField] == id
      ensures exists i :: 0 <= i < |initialProducts| && x == Tag(initialProducts[i], id)
    {
      assert x in Flatten(batches);
      assert |initialProducts| > 0;
      var tagged := TagAll(initialProducts, id);
      assert Flatten(batches) == tagged;
      var i :| 0 <= i < |tagged| && tagged[i] == x;
      assert x == Tag(initialProducts[i], id);
    }
  }

  /** With every insert succeeding, the products table gains exactly the tagged
      products, in order, and the connection table gains the connection. */
  lemma SetupAllSucceed(db: Db, sheetUrl: string, template: string, whatsapp: string, storeName: string,
                        initialProducts: seq<Record>, replies: SetupReplies)
    requires replies.store.Created?
    requires forall k :: replies.batchError(k).None?
    requires replies.connectionError.None?
    ensures var r := SetupComplete(db, sheetUrl, template, whatsapp, storeName, initialProducts, replies);
            var id := replies.store.id;
            && r.db.products == db.products + TagAll(initialProducts, id)
            && r.db.connections == db.connections + [Connection(id, sheetUrl, "google", whatsapp, template)]
            && r.toasts == []
  {
    if |initialProducts| == 0 {
      assert TagAll(initialProducts, replies.store.id) == [];
    }
  }

  /** With no initial products no product insert is issued, yet the connection
      is still attempted; its failure only adds a warning and the page still
      navigates to the new store. */
  lemma SetupWithoutProducts(db: Db, sheetUrl: string, template: string, whatsapp: string, storeName: string,
                             replies: SetupReplies)
    requires replies.store.Created?
    ensures var r := SetupComplete(db, sheetUrl, template, whatsapp, storeName, [], replies);
            var id := replies.store.id;
            && r.requests == [InsertStore(NewStore(storeName, template, whatsapp, "preview")),
                              InsertConnection(Connection(id, sheetUrl, "google", whatsapp, template))]
            && r.db.products == db.products
            && r.redirect == Some("/" + id)
            && (replies.connectionError.Some? ==> r.toasts == [ConnectionWarning] && r.db.connections == db.connections)
  {
  }

  /** A failed first batch does not stop the second: with only call 0 failing
      and two batches, the second batch is written and one warning is shown. */
  lemma {:induction false} FailedBatchThenGoodBatch(products: seq<Record>, b0: seq<Record>, b1: seq<Record>,
                                                   batchError: nat -> Option<string>)
    requires batchError(0).Some? && batchError(1).None?
    ensures WriteBatches(products, [b0, b1], 0, batchError) ==
            (products + b1, [BatchWarning(batchError(0).value)])
  {
    assert [b0, b1][1..] == [b1];
    assert [b1][1..] == [];
    assert Kept([], 2, batchError) == [] && Warnings([], 2, batchError) == [];
    assert Kept([b1], 1, batchError) == [b1];
    assert Warnings([b1], 1, batchError) == [];
    assert Kept([b0, b1], 0, batchError) == [b1];
    assert Warnings([b0, b1], 0, batchError) == [BatchWarning(batchError(0).value)];
    FlattenCons(b1, []);
    assert [b1] + [] == [b1];
    assert Flatten([b1]) == b1;
  }

  /** The answers of the deploy's two table calls (`Some` carries an error message). */
  datatype DeployReplies = DeployReplies(checkError: Option<string>, updateError: Option<string>)

  datatype Deploy = Deploy(db: Db, requests: seq<Request>, toast: Toast, reload: bool, isProcessing: bool)

  predicate HasStore(stores: seq<StoreRow>, id: string) {
    exists i :: 0 <= i < |stores| && stores[i].id == id
  }

  /** `.update({ status: "deployed" }).eq("id", storeId)`. */
  function MarkDeployed(stores: seq<StoreRow>, id: string): seq<StoreRow> {
    seq(|stores|, i requires 0 <= i < |stores| =>
      if stores[i].id == id then stores[i].(status := "deployed") else stores[i])
  }

  function DeployFailed(message: string): Toast {
    Toast("Deployment Failed", message, true)
  }

  const DeployDone := Toast("Deployment Complete", "Your store has been successfully deployed!", false)

  /** `handleDeploy`: check that the store exists, then update its status.
      `isProcessing` is cleared whatever happens. On success only the `status`
      of the rows with this id changes, to `deployed`. */
  function HandleDeploy(db: Db, storeId: string, replies: DeployReplies): (r: Deploy)
    ensures !r.isProcessing
    ensures r.db.products == db.products && r.db.connections == db.connections
    ensures !HasStore(db.stores, storeId) ==> r.db == db && UpdateStatus(storeId) !in r.requests && !r.reload
    ensures r.reload <==> HasStore(db.stores, storeId) && replies.checkError.None? && replies.updateError.None?
    ensures r.reload ==>
              && |r.db.stores| == |db.stores|
              && forall i :: 0 <= i < |db.stores| ==>
                   && r.db.stores[i].(status := db.stores[i].status) == db.stores[i]
                   && (db.stores[i].id == storeId ==> r.db.stores[i].status == "deployed")
                   && (db.stores[i].id != storeId ==> r.db.stores[i] == db.stores[i])
    ensures !r.reload ==> r.db == db
  {
    var check := [SelectStore(storeId)];
    if replies.checkError.Some? then
      Deploy(db, check, DeployFailed("Failed to verify store: " + replies.checkError.value), false, false)
    else if !HasStore(db.stores, storeId) then
      Deploy(db, check, DeployFailed("Store not found"), false, false)
    else
      var requests := check + [UpdateStatus(storeId)];
      if replies.updateError.Some? then
        Deploy(db, requests, DeployFailed("Failed to update store status: " + replies.updateError.value), false, false)
      else
        Deploy(db.(stores := MarkDeployed(db.stores, storeId)), requests, DeployDone, true, false)
  }

  /** Deploying an absent store fails with "Store not found" and issues no update. */
  lemma DeployMissingStore(db: Db, storeId: string, replies: DeployReplies)
    requires replies.checkError.None?
    requires !HasStore(db.stores, storeId)
    ensures HandleDeploy(db, storeId, replies) ==
            Deploy(db, [SelectStore(storeId)], DeployFailed("Store not found"), false, false)
  {
  }

  /** A store created by a setup can then be deployed, and ends up `deployed`. */
  lemma SetupThenDeploy(db: Db, sheetUrl: string, template: string, whatsapp: string, storeName: string,
                        initialProducts: seq<Record>, replies: SetupReplies)
    requires replies.store.Created?
    ensures var s := SetupComplete(db, sheetUrl, template, whatsapp, storeName, initialProducts, replies);
            var d := HandleDeploy(s.db, replies.store.id, DeployReplies(None, None));
            var last := |s.db.stores| - 1;
            d.reload && d.db.stores[last] == StoreRow(replies.store.id, storeName, template, whatsapp, "deployed")
  {
    var s := SetupComplete(db, sheetUrl, template, whatsapp, storeName, initialProducts, replies);
    var last := |s.db.stores| - 1;
    assert s.db.stores[last].id == replies.store.id;
  }
}

=== FILE: store_data.dfy ===
/** The storefront's page load: read the store id from the address, look the
    store up in the browser's saved `stores` list and keep its products from
    the saved `products` list. */
module StoreData {
  import opened Basics
  import opened Text
  import opened LocalStorage

  datatype StoredStore = StoredStore(
    id: string, name: string, template: string, status: Option<string>, whatsapp: Option<string>)

  /** A saved product; the price is kept as the text it was saved with. */
  datatype StoredProduct = StoredProduct(
    id: string, name: string, price: string, description: Option<string>, image: Option<string>,
    storeId: Option<string>)

  datatype Notice = Notice(title: string, description: string)

  /** The hook's state, plus the notice shown and whether the page is sent
      back to `/` (which the hook does after a two-second delay). */
  datatype View = View(
    products: seq<StoredProduct>,
    template: string,
    storeName: string,
    isSetupComplete: bool,
    currentStoreId: Option<string>,
    storeStatus: Option<string>,
    isLoading: bool,
    error: Option<string>,
    notice: Option<Notice>,
    redirectHome: bool)

  const Initial := View([], "minimal", "", false, None, None, true, None, None, false)

  const NotFoundNotice := Notice("Store Not Found", "The requested store could not be found")
  const LoadFailedNotice := Notice("Error", "Failed to load store data")

  const StoresKey := "stores"
  const ProductsKey := "products"

  /** The address path without its leading `/`. */
  function PathOf(pathname: string): string {
    if |pathname| == 0 then "" else pathname[1..]
  }

  /** `path.split('/')[0]`: the path up to its first `/`. */
  function PathStoreId(pathname: string): (id: string)
    ensures id <= PathOf(pathname)
    ensures '/' !in id
    ensures |id| < |PathOf(pathname)| ==> PathOf(pathname)[|id|] == '/'
  {
    Split(PathOf(pathname), '/')[0]
  }

  /** `stores.find(s => s.id === storeId)`: the index of the first match. */
  function FirstIndex(stores: seq<StoredStore>, storeId: string): (r: Option<nat>)
    ensures r.None? <==> forall i :: 0 <= i < |stores| ==> stores[i].id != storeId
    ensures r.Some? ==> r.value < |stores| && stores[r.value].id == storeId &&
                        forall i :: 0 <= i < r.value ==> stores[i].id != storeId
    decreases |stores|
  {
    if |stores| == 0 then None
    else if stores[0].id == storeId then Some(0)
    else match FirstIndex(stores[1..], storeId)
      case None => None
      case Some(i) => Some(i + 1)
  }

  /** `allProducts.filter(p => p.store_id === storeId)`. */
  function FilterByStore(all: seq<StoredProduct>, storeId: string): (r: seq<StoredProduct>)
    ensures |r| <= |all|
    ensures forall p :: p in r <==> p in all && p.storeId == Some(storeId)
    decreases |all|
  {
    if |all| == 0 then []
    else
      var rest := FilterByStore(all[1..], storeId);
      assert forall p :: p in all <==> p == all[0] || p in all[1..];
      if all[0].storeId == Some(storeId) then [all[0]] + rest else rest
  }

  /** A saved list: a missing or empty entry reads as the empty list,
      anything else goes through the JSON parser. */
  function ReadList<T>(ls: Storage, key: string, parse: string -> Result<seq<T>>): Result<seq<T>> {
    var text := GetItem(ls, key);
    if Truthy(text) then parse(text.value) else Ok([])
  }

  /** The `catch` branch: `error.message || "Unknown error"`. */
  function Failed(v: View, message: string): (r: View)
    ensures r.error.Some? && r.error.value != ""
    ensures r.error.value == message || (message == "" && r.error.value == "Unknown error")
    ensures !r.isLoading && r.notice == Some(LoadFailedNotice)
  {
    v.(error := Some(if message == "" then "Unknown error" else message),
       notice := Some(LoadFailedNotice), isLoading := false)
  }

  /** `fetchStoreData`, run from the hook state `v` at address `pathname`. */
  function FetchStoreData(v: View, pathname: string, ls: Storage,
                          parseStores: string -> Result<seq<StoredStore>>,
                          parseProducts: string -> Result<seq<StoredProduct>>): (r: View)
    ensures !r.isLoading
    ensures r.redirectHome ==> r.error == Some("Store not found") || v.redirectHome
    ensures r.error.Some? ==> r.notice.Some?
    ensures r.error.None? && PathStoreId(pathname) != "" ==>
              && r.isSetupComplete
              && r.currentStoreId == Some(PathStoreId(pathname))
              && forall p :: p in r.products ==> p.storeId == Some(PathStoreId(pathname))
  {
    var v0 := v.(isLoading := true, error := None);
    var path := PathOf(pathname);
    if path == "" then
      v0.(isSetupComplete := false, isLoading := false)
    else
      var storeId := PathStoreId(pathname);
      if storeId == "" then
        v0.(isLoading := false)
      else
        match ReadList(ls, StoresKey, parseStores)
        case Err(message) => Failed(v0, message)
        case Ok(stores) =>
          match FirstIndex(stores, storeId)
          case None =>
            v0.(error := Some("Store not found"), notice := Some(NotFoundNotice),
                redirectHome := true, isLoading := false)
          case Some(i) =>
            var store := stores[i];
            var v1 := v0.(template := store.template, storeName := store.name,
                          currentStoreId := Some(store.id), storeStatus := store.status,
                          isSetupComplete := true);
            match ReadList(ls, ProductsKey, parseProducts)
            case Err(message) => Failed(v1, message)
            case Ok(all) => v1.(products := FilterByStore(all, storeId), isLoading := false)
  }

  /** Filtering keeps the saved order: it distributes over concatenation. */
  lemma {:induction false} FilterAppend(a: seq<StoredProduct>, b: seq<StoredProduct>, storeId: string)
    ensures FilterByStore(a + b, storeId) == FilterByStore(a, storeId) + FilterByStore(b, storeId)
    decreases |a|
  {
    if |a| == 0 {
      assert a + b == b;
    } else {
      assert (a + b)[0] == a[0];
      assert (a + b)[1..] == a[1..] + b;
      FilterAppend(a[1..], b, storeId);
    }
  }

  /** At the root (`/`, or no path) the setup wizard is shown: nothing is read,
      no error, no redirect, and the rest of the state stays as it was. */
  lemma RootShowsWizard(v: View, pathname: string, ls: Storage,
                        parseStores: string -> Result<seq<StoredStore>>,
                        parseProducts: string -> Result<seq<StoredProduct>>)
    requires pathname == "/" || pathname == ""
    ensures FetchStoreData(v, pathname, ls, parseStores, parseProducts) ==
            v.(isSetupComplete := false, isLoading := false, error := None)
  {
  }

  /** A path that starts with `/` (such as `//x`) names no store: only the
      loading flag and the error are cleared. */
  lemma EmptyStoreId(v: View, rest: string, ls: Storage,
                     parseStores: string -> Result<seq<StoredStore>>,
                     parseProducts: string -> Result<seq<StoredProduct>>)
    ensures FetchStoreData(v, "//" + rest, ls, parseStores, parseProducts) ==
            v.(isLoading := false, error := None)
  {
    assert PathOf("//" + rest) == "/" + rest;
    assert PathOf("//" + rest)[0] == '/';
  }

  /** No store with the address's id: "Store not found", a notice, and the
      redirect home (the address is never `/` on this branch). Also when
      nothing was ever saved. */
  lemma UnknownStoreRedirects(v: View, pathname: string, ls: Storage,
                              parseStores: string -> Result<seq<StoredStore>>,
                              parseProducts: string -> Result<seq<StoredProduct>>)
    requires PathStoreId(pathname) != ""
    requires StoresKey !in ls || ls[StoresKey] == "" ||
             (parseStores(ls[StoresKey]).Ok? &&
              forall i :: 0 <= i < |parseStores(ls[StoresKey]).value| ==>
                parseStores(ls[StoresKey]).value[i].id != PathStoreId(pathname))
    ensures var r := FetchStoreData(v, pathname, ls, parseStores, parseProducts);
            && pathname != "/"
            && r.error == Some("Store not found") && r.notice == Some(NotFoundNotice)
            && r.redirectHome && !r.isLoading
            && r.products == v.products && r.isSetupComplete == v.isSetupComplete
  {
  }

  /** A saved store with the address's id: its template, name, id and status
      are shown, and the products are exactly the saved ones of that store, in
      saved order. The first saved store with that id wins. */
  lemma KnownStoreLoads(v: View, pathname: string, ls: Storage,
                        parseStores: string -> Result<seq<StoredStore>>,
                        parseProducts: string -> Result<seq<StoredProduct>>,
                        stores: seq<StoredStore>, i: nat, all: seq<StoredProduct>)
    requires ReadList(ls, StoresKey, parseStores) == Ok(stores)
    requires ReadList(ls, ProductsKey, parseProducts) == Ok(all)
    requires i < |stores| && stores[i].id == PathStoreId(pathname) && PathStoreId(pathname) != ""
    requires forall j :: 0 <= j < i ==> stores[j].id != stores[i].id
    ensures FetchStoreData(v, pathname, ls, parseStores, parseProducts) ==
            v.(template := stores[i].template, storeName := stores[i].name,
               currentStoreId := Some(stores[i].id), storeStatus := stores[i].status,
               isSetupComplete := true, error := None, isLoading := false,
               products := FilterByStore(all, stores[i].id))
  {
    assert FirstIndex(stores, stores[i].id) == Some(i);
  }

  /** With no saved `products` entry the store still loads, with no products. */
  lemma KnownStoreWithoutProducts(v: View, pathname: string, ls: Storage,
                                  parseStores: string -> Result<seq<StoredStore>>,
                                  parseProducts: string -> Result<seq<StoredProduct>>,
                                  stores: seq<StoredStore>, i: nat)
    requires ReadList(ls, StoresKey, parseStores) == Ok(stores)
    requires ProductsKey !in ls
    requires i < |stores| && stores[i].id == PathStoreId(pathname) && PathStoreId(pathname) != ""
    ensures var r := FetchStoreData(v, pathname, ls, parseStores, parseProducts);
            r.products == [] && r.isSetupComplete && r.error.None? && !r.isLoading
  {
  }

  /** A saved list the parser rejects ends loading with the parser's message
      (or "Unknown error" if it has none) and the failure notice. */
  lemma BadStoresText(v: View, pathname: string, ls: Storage,
                      parseStores: string -> Result<seq<StoredStore>>,
                      parseProducts: string -> Result<seq<StoredProduct>>)
    requires PathStoreId(pathname) != ""
    requires StoresKey in ls && ls[StoresKey] != "" && parseStores(ls[StoresKey]).Err?
    ensures var r := FetchStoreData(v, pathname, ls, parseStores, parseProducts);
            var m := parseStores(ls[StoresKey]).message;
            && r.error == Some(if m == "" then "Unknown error" else m)
            && r.notice == Some(LoadFailedNotice) && !r.isLoading && r.isSetupComplete == v.isSetupComplete
  {
  }
}

=== FILE: text.dfy ===
/** ASCII character classes, decimal rendering of naturals, and
    JavaScript-style `split`/`join` on a single separator character. */
module Text {
  import opened Basics

  predicate IsDigit(c: char) {
    '0' <= c <= '9'
  }

  predicate AllDigits(s: string) {
    forall i :: 0 <= i < |s| ==> IsDigit(s[i])
  }

  /** The characters the regular-expression class `\s` matches, restricted
      to ASCII: space, tab, line feed, vertical tab, form feed, carriage return. */
  predicate IsSpace(c: char) {
    c == ' ' || '\t' <= c <= '\r'
  }

  predicate IsUpper(c: char) {
    'A' <= c <= 'Z'
  }

  /** `toLowerCase` on one ASCII character; every other character is kept. */
  function LowerChar(c: char): char {
    if IsUpper(c) then (c as int + 32) as char else c
  }

  /** `toLowerCase` on a string, character by character. */
  function Lower(s: string): (r: string)
    ensures |r| == |s|
    ensures forall i :: 0 <= i < |s| ==> r[i] == LowerChar(s[i])
  {
    seq(|s|, i requires 0 <= i < |s| => LowerChar(s[i]))
  }

  function DigitChar(d: nat): (c: char)
    requires d < 10
    ensures IsDigit(c)
  {
    (('0' as int) + d) as char
  }

  function DigitValue(c: char): (d: nat)
    requires IsDigit(c)
    ensures d < 10
  {
    c as int - '0' as int
  }

  /** `n.toString()` for a natural number: its decimal digits, most significant first. */
  function NatToString(n: nat): (s: string)
    ensures 1 <= |s|
    ensures AllDigits(s)
    ensures |s| > 1 ==> s[0] != '0'
    decreases n
  {
    if n < 10 then [DigitChar(n)] else NatToString(n / 10) + [DigitChar(n % 10)]
  }

  /** The number a string of decimal digits denotes (the inverse of `NatToString`). */
  function DigitsValue(s: string): nat
    requires AllDigits(s)
    decreases |s|
  {
    if |s| == 0 then 0 else 10 * DigitsValue(s[..|s| - 1]) + DigitValue(s[|s| - 1])
  }

  /** Reading back the decimal rendering of `n` gives `n`. */
  lemma {:induction false} DigitsValueOfNatToString(n: nat)
    ensures DigitsValue(NatToString(n)) == n
    decreases n
  {
    if n >= 10 {
      var s := NatToString(n / 10);
      DigitsValueOfNatToString(n / 10);
      assert (s + [DigitChar(n % 10)])[..|s|] == s;
    }
  }

  /** Distinct naturals have distinct decimal renderings. */
  lemma NatToStringInjective(a: nat, b: nat)
    ensures NatToString(a) == NatToString(b) ==> a == b
  {
    DigitsValueOfNatToString(a);
    DigitsValueOfNatToString(b);
  }

  /** `parts.join(sep)`: the parts with one separator between neighbours; `[]` joins to "". */
  function Join(parts: seq<string>, sep: char): string
    decreases |parts|
  {
    if |parts| == 0 then ""
    else if |parts| == 1 then parts[0]
    else parts[0] + [sep] + Join(parts[1..], sep)
  }

  /** `s.split(sep)`: the maximal separator-free pieces, always at least one.
      The first piece is the prefix of `s` before the first separator. */
  function Split(s: string, sep: char): (parts: seq<string>)
    ensures |parts| >= 1
    ensures parts[0] <= s
    ensures sep !in parts[0]
    ensures |parts[0]| < |s| ==> s[|parts[0]|] == sep
    decreases |s|
  {
    if |s| == 0 then [""]
    else if s[0] == sep then [""] + Split(s[1..], sep)
    else
      var rest := Split(s[1..], sep);
      [[s[0]] + rest[0]] + rest[1..]
  }

  /** Joining two non-empty lists is joining each and putting a separator between. */
  lemma {:induction false} JoinAppend(a: seq<string>, b: seq<string>, sep: char)
    requires |a| >= 1 && |b| >= 1
    ensures Join(a + b, sep) == Join(a, sep) + [sep] + Join(b, sep)
    decreases |a|
  {
    if |a| == 1 {
      assert (a + b)[1..] == b;
    } else {
      assert (a + b)[1..] == a[1..] + b;
      JoinAppend(a[1..], b, sep);
    }
  }

  /** A separator-free prefix glues onto the first piece of what follows it. */
  lemma {:induction false} SplitPrefix(a: string, rest: string, sep: char)
    requires sep !in a
    ensures var t := Split(rest, sep); Split(a + rest, sep) == [a + t[0]] + t[1..]
    decreases |a|
  {
    if |a| == 0 {
      var t := Split(rest, sep);
      assert a + rest == rest;
      assert a + t[0] == t[0];
      assert [t[0]] + t[1..] == t;
    } else {
      var t := Split(rest, sep);
      assert (a + rest)[0] == a[0] && a[0] != sep;
      assert (a + rest)[1..] == a[1..] + rest;
      SplitPrefix(a[1..], rest, sep);
      var r := Split(a[1..] + rest, sep);
      assert r == [a[1..] + t[0]] + t[1..];
      assert Split(a + rest, sep) == [[a[0]] + r[0]] + r[1..];
      assert [a[0]] + (a[1..] + t[0]) == a + t[0];
    }
  }

  /** `split` undoes `join` when no part contains the separator. */
  lemma {:induction false} SplitJoin(parts: seq<string>, sep: char)
    requires |parts| >= 1
    requires forall i :: 0 <= i < |parts| ==> sep !in parts[i]
    ensures Split(Join(parts, sep), sep) == parts
    decreases |parts|
  {
    if |parts| == 1 {
      SplitPrefix(parts[0], "", sep);
      assert parts[0] + "" == parts[0];
    } else {
      var tail := Join(parts[1..], sep);
      SplitJoin(parts[1..], sep);
      assert ([sep] + tail)[1..] == tail;
      SplitPrefix(parts[0], [sep] + tail, sep);
      var t := Split([sep] + tail, sep);
      assert t == [""] + parts[1..];
      assert Join(parts, sep) == parts[0] + ([sep] + tail);
      assert parts[0] + t[0] == parts[0];
      assert t[1..] == parts[1..];
      assert parts == [parts[0]] + parts[1..];
    }
  }

  /** The length of the longest prefix of `s` whose characters all satisfy `p`. */
  function Run(s: string, p: char -> bool): (n: nat)
    ensures n <= |s|
    ensures forall i :: 0 <= i < n ==> p(s[i])
    ensures n < |s| ==> !p(s[n])
    decreases |s|
  {
    if |s| > 0 && p(s[0]) then 1 + Run(s[1..], p) else 0
  }

  /** A prefix of length `k` whose characters satisfy `p`, followed by one that
      does not (or by the end), is the run `Run` measures. */
  lemma RunUnique(s: string, p: char -> bool, k: nat)
    requires k <= |s|
    requires forall i :: 0 <= i < k ==> p(s[i])
    requires k < |s| ==> !p(s[k])
    ensures Run(s, p) == k
  {
  }

  /** `s` holds `pat` starting at index `i`. */
  predicate OccursAt(s: string, i: nat, pat: string) {
    i + |pat| <= |s| && s[i..i + |pat|] == pat
  }
}
